=== FILE: README.md ===
# cf_clearance fetchers: a Dafny model

The repository holds three Node.js programs. Each drives a Chrome instance over
the Chrome DevTools Protocol (CDP) until the site sets a `cf_clearance` cookie:

- `main.js` is a one-shot script. It clicks a fixed point, waits and checks the
  cookie jar up to 3000 times, and writes the first `cf_clearance` cookie to a
  file.
- `server.js` is an HTTP server. Each `POST /get-cf-clearance` launches its own
  Chrome and runs the same click/check loop up to 1000 times. It answers 200,
  400, 408 or 500.
- `server2.js` is an HTTP server. It lends browsers from a `BrowserPool`, with
  a map of active ids and a FIFO list of parked callers. It listens for
  `set-cookie` response headers, polls the cookie jar up to 30 times, and
  always releases the browser in a `finally` block.

This project models the control logic of the three programs as pure Dafny
functions over an abstract environment. Chrome, CDP and the timers are inputs:

- whether each call resolves;
- the cookie snapshot of each iteration;
- the headers the listener sees;
- whether the 30 s timer wins the race.

The observable side effects are kept as an ordered trace of events.

Modules, leaves first:

| file | module | what it holds |
|---|---|---|
| base.dfy | `Base` | `Option`, JavaScript truthiness of a nullable string, occurrence counts |
| cookies.dfy | `Cookies` | `cookies.find(c => c.name === 'cf_clearance')`, and the `set-cookie` listener: a substring test, then the regular expression `cf_clearance=([^;]+)` |
| trace.dfy | `Trace` | events, the two-dispatch click, the `finally` teardown of server.js and main.js, trace observers |
| clicking.dfy | `Clicking` | the click → sleep → check loop shared by server.js and main.js, parameterised by its bound |
| single_server.dfy | `SingleServer` | server.js's request handler and its status decision |
| script.dfy | `Script` | main.js's `runChromeAndGetCookie` |
| browser_pool.dfy | `BrowserPool` | server2.js's `BrowserPool`: `acquire`, `release`, `cleanup`, and runs of them |
| pooled_server.dfy | `PooledServer` | server2.js's polling loop, `processSingleRequest` and the route |

## Model

| member | source | states |
|---|---|---|
| Cookies.FirstClearance | server.js:62 | the index found is the first cookie named `cf_clearance`; there is none exactly when no cookie has that name |
| Cookies.FindClearance | main.js:64 | `find` yields a cookie exactly when one is named `cf_clearance`, and it is the first such cookie of the snapshot |
| Cookies.MatchStart | server2.js:129 | the regular expression's search starts at the leftmost position where `cf_clearance=` is followed by a non-`;` character |
| Cookies.MatchClearance | server2.js:129 | `match` fails exactly when no position matches; otherwise capture group 1 is the non-empty, `;`-free run after the leftmost `cf_clearance=`, up to the next `;` or the end |
| Cookies.CaptureIsUnique | server2.js:129 | the leftmost-match, greedy-capture reading determines a single capture |
| Cookies.MatchImpliesIncludes | server2.js:128-129 | whenever the expression matches, the header is non-empty and includes `cf_clearance` |
| Cookies.HeaderTokenIsMatch | server2.js:127-133 | the listener's truthiness and `includes` guards never change the regular expression's verdict: an absent header yields nothing, a present one yields exactly the match |
| Cookies.HeaderToken | server2.js:127-133 | an absent header sets nothing; a value set is a capture of the regular expression in the header, non-empty and free of `;` |
| Cookies.OnHeader | server2.js:126-134 | one `responseReceivedExtraInfo` event: no `set-cookie` header leaves `cfClearance` alone; any change sets a truthy value; a truthy value stays truthy |
| Cookies.OnHeaders | server2.js:126-134 | a run of events changes `cfClearance` only to a truthy value and never makes a truthy one falsy |
| Cookies.OnHeadersAppend | server2.js:126-134 | the listener over two runs of headers is the listener over the first, then over the second from where it left `cfClearance` |
| Cookies.LastHeaderWins | server2.js:126-134 | across headers delivered in order, `cfClearance` ends as the capture of the last matching header, and is unchanged when none matches |
| Trace.Click | server.js:65-80 | a click is a left-button, single-count press at (x, y), then the matching release only if the press resolved |
| Trace.Teardown | server.js:101-103 | the client is closed exactly when it was created; Chrome is killed exactly when it was launched and no earlier close rejected; the kill is last |
| Trace.TeardownKeeps | main.js:119-125 | the `finally` block adds no cookie check, response or file write to the trace |
| Trace.TeardownMembers | main.js:119-125 | after the `finally` block, the launch and connection events are those of the `try`, and a kill is the last event |
| Clicking.RoundCounts | server.js:87-90 | a completed iteration issues one press, one release and one cookie check; an iteration whose click failed issues no check |
| Clicking.ClickLoop | server.js:87-94 | the loop stops at an iteration within the bound; every earlier iteration missed cleanly; it finds the stopping iteration's first `cf_clearance` cookie, fails on a non-miss, or is exhausted exactly at the bound |
| Clicking.LoopShape | server.js:87-92 | every check comes right after a full click at (273, 290) and a sleep; a successful check is the loop's last event; the loop emits only sleeps, checks, and left-button, single-count presses and releases at (273, 290) |
| Clicking.LoopCounts | main.js:107-115 | there are at most `limit` checks; after a clean end there are as many presses and releases as checks, one per iteration run |
| Clicking.LoopDecision | server.js:87-96 | the loop is exhausted exactly when every check missed without error, and finds a cookie exactly when some iteration hits after clean misses only, returning that iteration's cookie |
| Clicking.SetUpLoop | server.js:49-94 | after the launch and the connection, the trace has checks only after clicks, at most `limit` of them, and otherwise only left, single-count presses and releases at (273, 290) and sleeps: no response, close or kill |
| SingleServer.Attempt | server.js:22-100 | Chrome exists exactly when launched, the client exactly when also connected; the status is 200, 408 or 500; 200 and 408 need a completed setup; a value comes exactly with 200 |
| SingleServer.AttemptWellFormed | server.js:22-100 | every run of the `try`/`catch` picks one of 200, 408 and 500, gives a body value exactly on 200, makes at most 1000 checks, and records only the handles it created |
| SingleServer.Conclude | server.js:98-103 | the trace is the attempt's events, then the response, then only closes and kills; it adds no check and carries one status; the launch and connection events are exactly the attempt's handles; the client is closed exactly when connected; a rejected close skips the kill, and otherwise a launched Chrome is killed last |
| SingleServer.Handle | server.js:11-108 | a request gets 400 exactly when `url` or `userAgent` is falsy, and then nothing else happens; otherwise the trace is the attempt's events (launch, connection, clicks, sleeps, checks), then its status among 200, 408 and 500, then only closes and kills; a body value comes exactly with 200; Chrome is launched exactly when the launch resolves and connected exactly when the connection also resolves; at most 1000 checks; close iff connected; a rejected close skips the kill, and otherwise a launched Chrome is killed last |
| SingleServer.StatusDecision | server.js:87-100 | a valid request gets 408 exactly when Chrome came up and all 1000 checks missed, and 200 exactly when some iteration hit after clean misses, with that iteration's first `cf_clearance` value |
| BrowserPool.NewPool | server2.js:13-18 | a new pool has no browsers, no parked callers and an empty `pool` |
| BrowserPool.Acquire | server2.js:20-31 | the caller is parked at the back of the queue exactly when the capacity test fails; a failed launch propagates with the state unchanged; a grant registers exactly `id` with the launched browser and changes no other entry |
| BrowserPool.Release | server2.js:33-54 | an unknown id changes nothing; a known id loses its entry and its browser is killed; a parked caller is served exactly when one exists and the replacement launches, and it is the earliest one, with `newId`; a failed replacement launch throws and leaves the queue alone |
| BrowserPool.Cleanup | server2.js:89-101 | every registered browser is killed, the map and `pool` end empty, and the queue and `maxSize` are untouched |
| BrowserPool.Step | server2.js:12-101 | one atomic pool operation never changes `maxSize` |
| BrowserPool.HasRoom | server2.js:21 | as written (`PoolLength`) with the empty `pool`, there is room exactly when `maxSize` is positive; under the corrected test (`ActiveCount`) granting leaves at most `maxSize` browsers handed out |
| BrowserPool.Run | server2.js:12-101 | a sequence of operations never changes `maxSize`, and the logs of parked and served callers before it are prefixes of the logs after it |
| BrowserPool.PoolStaysEmpty | server2.js:14 | the `pool` array, empty at construction, is empty after any sequence of operations |
| BrowserPool.ServedInOrder | server2.js:47-53 | parked callers are served first in, first out: the initial queue then the callers parked since equals the callers served since then the final queue |
| BrowserPool.AsWrittenNeverParks | server2.js:21 | with the capacity test as written and a positive `maxSize`, no `acquire` is ever parked |
| BrowserPool.AsWrittenUnbounded | server2.js:21-25 | with the capacity test as written, every successful acquisition under a fresh id adds one browser, without bound |
| BrowserPool.AsWrittenExceedsMaxSize | server2.js:21 | with `maxSize` 1, two acquisitions as written leave two browsers handed out and nobody parked |
| BrowserPool.ActiveCountBounded | server2.js:21 | with the capacity test on the number of browsers handed out, no sequence of atomic operations exceeds `maxSize`; the program's `acquire` awaits the launch between the test and the `set`, so concurrent calls are outside this lemma |
| BrowserPool.ReleaseShrinks | server2.js:33-53 | releasing a registered id never increases the number of browsers handed out, even when it hands one to a parked caller |
| BrowserPool.FullPoolParks | server2.js:28-30 | under the corrected capacity test, `acquire` on a full pool parks the caller |
| BrowserPool.ReleaseTwiceIsNoOp | server2.js:34-35 | a second `release` of the same id finds nothing and changes nothing |
| BrowserPool.AcquireAfterCleanup | server2.js:99-100 | after `cleanup`, a pool with a positive limit grants the next acquisition whose launch succeeds |
| PooledServer.TokenAt | server2.js:143-152 | `cfClearance` at an iteration the loop reaches by misses: the starting value at the start, and truthy from then on once truthy, for a listener that keeps it truthy |
| PooledServer.OnHeadersKeepsTruthy | server2.js:126-134 | server2.js's listener never turns a truthy `cfClearance` falsy |
| PooledServer.TokenAtOnHeaders | server2.js:126-152 | under server2.js's listener, `cfClearance` at an iteration is the listener applied to every header delivered since the loop began, in order |
| PooledServer.PollLoop | server2.js:143-152 | at most 30 enumerations; the loop leaves on a truthy `cfClearance` before the bound, or after exactly 30 enumerations at the bound, or on the enumeration that found a cookie or rejected |
| PooledServer.EnumeratesOnlyWhileFalsy | server2.js:143-144 | every enumeration happens while `cfClearance` is still falsy |
| PooledServer.EnumerationsMissed | server2.js:146-151 | every enumeration the loop goes on from found no `cf_clearance` cookie |
| PooledServer.LastEnumeration | server2.js:146-150 | a loop that leaves on a found cookie takes the value of that enumeration's first `cf_clearance` cookie; one that leaves on a rejection left through that enumeration's error |
| PooledServer.LeavesWithListenerValue | server2.js:144 | a loop that leaves because `cfClearance` became truthy leaves with exactly the listener's value at that iteration |
| PooledServer.RunsOutWithListenerValue | server2.js:143-152 | a loop that runs out leaves `cfClearance` as the listener made it over the 30 iterations |
| PooledServer.Navigation | server2.js:138-157 | a failed navigation is a protocol error; after it, the branch is a protocol error exactly when an enumeration rejected, succeeds exactly when none did and `cfClearance` ends truthy, with that value, and otherwise throws 'Cookie not found' |
| PooledServer.Attempt | server2.js:116-167 | a failed connect or enable is a protocol error; a timer that wins the race is a timeout; otherwise the outcome is exactly the navigation branch's |
| PooledServer.Serve | server2.js:106-181 | `release` is called exactly once and last, for the granted id; the client is closed exactly when it was created; the pool ends as that release leaves it; the call throws exactly when the release throws, and otherwise returns the attempt's outcome |
| PooledServer.Answer | server2.js:190-200 | 200 with the value on success, 408 on any returned failure, 500 when `processSingleRequest` threw |
| PooledServer.Route | server2.js:183-200 | for either capacity test: 400 exactly on a falsy `url` or `userAgent`, with no pool activity; parked exactly when the test fails; a failed launch gives 500 with no release; a granted request releases its id exactly once, last, ends with the pool as `release` leaves it, and gets 500 exactly when `release` throws, 200 with the value exactly when it does not and the attempt succeeded, 408 otherwise |
| PooledServer.AsWrittenNeverSuspends | server2.js:21 | as written, a request against a pool built with limit 10 is never parked, after any sequence of pool operations |
| PooledServer.StatusDecision | server2.js:106-200 | a valid request that gets a browser: 500 exactly when a caller is parked and the replacement launch fails; 200 exactly when not and the client connected, enabled, navigated, beat the timer, no enumeration rejected and `cfClearance` ended truthy, with that value; 408 otherwise |
| PooledServer.HeaderBeforeFirstPoll | server2.js:143-155 | a header that sets `cfClearance` during navigation means no enumeration at all and success with that value |
| PooledServer.CookieOverridesHeader | server2.js:145-150 | a found cookie's value replaces whatever the listener set during the same iteration |
| PooledServer.EmptyCookieNotFound | server2.js:148-157 | a `cf_clearance` cookie with an empty value ends the loop but the request still fails with 'Cookie not found' |
| PooledServer.AllMissesRunOut | server2.js:143-152 | when every enumeration misses and the listener sets nothing, the loop makes all 30 enumerations and leaves `cfClearance` null |
| PooledServer.AllMissesNotFound | server2.js:137-157 | when no header ever matches and every enumeration misses, the navigation branch throws 'Cookie not found' after 30 enumerations |
| PooledServer.ReleaseOnEveryPath | server2.js:168-176 | every path after `acquire` calls `release`, and then the request's id is no longer registered unless the handoff reused it |
| Script.Attempt | main.js:16-118 | Chrome exists exactly when launched, the client exactly when also connected; any outcome but a caught error needs a completed setup; a saved cookie needs a successful write |
| Script.AttemptAfterSetup | main.js:56-115 | the run saves exactly when the loop found a cookie and the write succeeded, saving that cookie; a found cookie is written as the last event, whether or not the write succeeds; not-found exactly when the loop is exhausted |
| Script.AttemptWellFormed | main.js:16-118 | every run of the `try`/`catch` makes at most 3000 checks, each after a click, writes the file at most once, and a saved outcome wrote exactly its cookie |
| Script.Conclude | main.js:119-125 | the trace is the `try` block's events followed only by closes and kills, so no check or write is added; the launch and connection events are exactly the attempt's handles; it closes exactly when connected, skips the kill after a rejected close and otherwise kills a launched Chrome last; the run settles exactly when each teardown call it reaches resolves |
| Script.RunScript | main.js:11-130 | the trace is the `try` block's events followed only by closes and kills; at most 3000 checks, each after a full click; at most one file write, and a saved outcome wrote exactly its cookie; Chrome is launched exactly when the launch resolves, connected exactly when the connection also resolves; close iff connected; no kill after a rejected close, and otherwise a launched Chrome is killed last; the run settles exactly when the teardown calls it reaches resolve |
| Script.SaveDecision | main.js:107-118 | the cookie is saved exactly when Chrome came up, some iteration hit after clean misses, and the write succeeded, and it is that iteration's first `cf_clearance` cookie; the run ends not-found exactly when all 3000 checks missed |
| Script.WriteOnlyOnFind | main.js:62-72 | the output file is written exactly when some iteration found the cookie after clean misses, and with that cookie |
| Script.AttemptWrites | main.js:65-67 | the `try` block writes the loop's found cookie once, or nothing |
| Script.ClicksMatchChecks | main.js:107-112 | after a clean loop, presses, releases and checks are equal in number, one per iteration run |

## Left out

- Chrome's launch flags, the CDP transport and page behaviour are out of scope. Launching and connecting are each one call that resolves or rejects. The other setup calls are grouped, and one input says whether the group resolves: in server.js and main.js `setupOk` covers `Network.enable`, `Page.enable`, `Page.navigate` and `Page.loadEventFired`; in server2.js `enableOk` covers the two enables and `navigateOk` covers navigation and the load event. The cookie snapshots and `set-cookie` headers are inputs.
- Express routing and JSON bodies are out of scope. Only the status codes and the body value are kept.
- `fs.writeFile` in main.js is I/O. It is a `FileWritten` trace event, and its success is an input. The event records the call, so it is in the trace even when the write fails.
- `Cookie` keeps only a cookie's name and value. main.js:67 writes the whole CDP cookie object as JSON, with its domain, path, expiry and flags; `FileWritten` carries only the name and value.
- Timers, the sleeps and the `Promise.race` against the 30 s timeout in server2.js are out of scope. The timer's win is an input (`Session.timedOut`).
- When the timer wins the race, the losing navigation branch keeps polling in the background. That is not modelled.
- In server2.js, when `CDP(...)`, `Network.enable` or `Page.enable` rejects, the `Promise.race` is never reached. The 30 s timer is never cleared, so `timeoutPromise` later rejects with no handler. Node 15 and later end the process on an unhandled rejection by default, so such a request can bring the whole server down 30 s later. The model answers that request with 408 and does not model the process ending.
- Concurrent interleaving of `acquire` and `release` calls is out of scope. Every pool operation is one atomic step, and a parked caller is resumed by the `release` that serves it.
- BrowserPool.ActiveCountBounded: holds only for atomic `acquire` calls. In the program, `acquire` awaits `createBrowser()` (server2.js:22) between the capacity test and `activeRequests.set`, so even the corrected test lets concurrent requests pass it together and overshoot `maxSize`.
- `Math.random` ids are out of scope: request ids and the handoff id are inputs. `Map.set` on an id already present replaces the entry, as `Acquire` states.
- main.js's random click delay (randomness and floating point) is not modelled.
- `performance.now` timings and all `console` output are not modelled.
- The `SIGINT` hook is not modelled, except that `Cleanup` is the state change it triggers.
- A failing `chrome.kill()` is swallowed inside `release` and `cleanup`, so it leaves no trace in the model. A failing `client.close()` in server2.js is swallowed too.
- SingleServer.Handle: a rejected `chrome.kill()` in server.js's `finally` is not an input. It comes after the response, so it changes neither the status nor the trace. But it rejects the handler's promise, and so does a rejected `client.close()` (server.js:102), which the model does keep as `closeOk`. Express before version 5 ignores a handler's promise, so the rejection is unhandled, and Node 15 and later end the process on an unhandled rejection by default. The process ending is not modelled.
- In these places the code does what a reader might not expect, and the model follows the code:
  - `cleanup` keeps parked callers and leaves `acquire` working (`BrowserPool.Cleanup`, `BrowserPool.AcquireAfterCleanup`);
  - `cfClearance` is last-write-wins, and a found cookie overrides a header (`Cookies.LastHeaderWins`, `PooledServer.CookieOverridesHeader`);
  - every failure inside the `try` of `processSingleRequest`, protocol errors included, becomes a 408 (`PooledServer.Answer`);
  - a failed replacement launch inside `release` escapes the `finally` and turns the answer into a 500 (`PooledServer.Serve`);
  - in server.js and main.js a rejected `client.close()` skips `chrome.kill()` (`Trace.Teardown`).

## Findings

| source | as written | input that shows it | evidently intended | confidence | as-written member | corrected member |
|---|---|---|---|---|---|---|
| server2.js:21 | `acquire` tests `this.pool.length < this.maxSize`, but `pool` is only ever assigned `[]`, so the test always passes for a positive `maxSize` | `maxSize` 1 and two acquisitions that both launch: two browsers are handed out at once and nobody is parked | bound the browsers handed out (`activeRequests.size < maxSize`), parking the rest | high, not executed | BrowserPool.AsWrittenExceedsMaxSize | BrowserPool.ActiveCountBounded |

`BrowserPool.Acquire`, `BrowserPool.Run` and `PooledServer.Route` take the
capacity test as a parameter (`CapacityRule`), so both readings share one
definition. `PoolLength` is the code as written; `PooledServer.AsWrittenNeverSuspends`
shows that under it the route never parks a request. `ActiveCount` is the
corrected test, and `BrowserPool.ActiveCountBounded` and
`BrowserPool.FullPoolParks` are about it.

=== FILE: base.dfy ===
/** Shared vocabulary: optional values, JavaScript truthiness and occurrence counts. */
module Base {

  /** A value that may be absent: JavaScript `null`/`undefined` or a present value. */
  datatype Option<+T> = None | Some(value: T)

  /** `if (s)` in JavaScript for a value that is either null or a string: null and "" are falsy. */
  predicate Truthy(s: Option<string>) {
    s.Some? && s.value != ""
  }

  /** Number of occurrences of `x` in `s`. */
  function Count<T(==)>(s: seq<T>, x: T): nat {
    if |s| == 0 then 0 else (if s[0] == x then 1 else 0) + Count(s[1..], x)
  }

  /** Count spelled out for sequences of at most four elements. */
  function CountLiteral<T(==)>(s: seq<T>, x: T): nat
    requires |s| <= 4
  {
    (if |s| > 0 && s[0] == x then 1 else 0) + (if |s| > 1 && s[1] == x then 1 else 0)
    + (if |s| > 2 && s[2] == x then 1 else 0) + (if |s| > 3 && s[3] == x then 1 else 0)
  }

  lemma CountOfShort<T>(s: seq<T>, x: T)
    requires |s| <= 4
    ensures Count(s, x) == CountLiteral(s, x)
  {
    if |s| > 0 {
      var t := s[1..];
      if |t| > 0 {
        var u := t[1..];
        if |u| > 0 {
          var v := u[1..];
          if |v| > 0 {
            assert Count(v, x) == (if v[0] == x then 1 else 0) + Count(v[1..], x);
          }
          assert Count(u, x) == (if u[0] == x then 1 else 0) + Count(v, x);
        }
        assert Count(t, x) == (if t[0] == x then 1 else 0) + Count(u, x);
      }
    }
  }

  lemma {:induction false} CountAppend<T>(a: seq<T>, b: seq<T>, x: T)
    ensures Count(a + b, x) == Count(a, x) + Count(b, x)
    decreases |a|
  {
    if |a| == 0 {
      assert a + b == b;
    } else {
      assert (a + b)[0] == a[0] && (a + b)[1..] == a[1..] + b;
      CountAppend(a[1..], b, x);
    }
  }
}

=== FILE: browser_pool.dfy ===
/**
  The `BrowserPool` of server2.js: a map from request id to launched browser,
  a FIFO list of parked `acquire` callers, a `pool` array and a `maxSize`.
  Each operation is one atomic step. Launching Chrome (`createBrowser`) is an
  input that either yields a browser or fails, and request ids, which the
  program draws from `Math.random`, are inputs too.
*/
module BrowserPool {
  import opened Base

  const MaxConcurrentBrowsers: int := 10

  /** A launched Chrome instance, `{ chrome, inUse: false }`, as an opaque token. */
  datatype Browser = Browser(chrome: nat)

  type Id = string

  /** The resolver of a parked `acquire` call, named by its caller. */
  type Waiter = nat

  /** What `acquire` resolves with. */
  datatype Grant = Grant(browser: Browser, id: Id)

  /** The outcome of `createBrowser`: the launch resolves or rejects (and the rejection is rethrown). */
  datatype Launch = Launched(browser: Browser) | LaunchFailed(error: string)

  datatype Pool = Pool(pool: seq<Browser>, maxSize: int, waiting: seq<Waiter>, active: map<Id, Browser>)

  /** `new BrowserPool(maxSize)`. */
  function NewPool(maxSize: int): (p: Pool)
    ensures p.pool == [] && p.waiting == [] && p.active == map[] && p.maxSize == maxSize
  {
    Pool([], maxSize, [], map[])
  }

  /**
    The capacity test of `acquire`. The program compares the length of `pool`
    (PoolLength), which nothing ever appends to; ActiveCount compares the
    number of browsers handed out, which is what the limit is evidently meant
    to bound.
  */
  datatype CapacityRule = PoolLength | ActiveCount

  /**
    The capacity test. As written, a pool whose `pool` array is empty has
    room whenever `maxSize` is positive, whatever is handed out; the
    corrected test leaves room only below `maxSize` browsers handed out.
  */
  function HasRoom(rule: CapacityRule, p: Pool): (room: bool)
    ensures rule.PoolLength? && p.pool == [] ==> (room <==> p.maxSize > 0)
    ensures rule.ActiveCount? && room ==> |p.active| + 1 <= p.maxSize
  {
    match rule
    case PoolLength => |p.pool| < p.maxSize
    case ActiveCount => |p.active| < p.maxSize
  }

  datatype Acquired =
    | Granted(next: Pool, grant: Grant)
    | Parked(next: Pool)
    | AcquireFailed(next: Pool, error: string)

  /**
    `acquire()`: with room, launch a browser and register it under `id`;
    without room, park `caller` at the back of the queue until a release
    hands it a browser.
  */
  function Acquire(rule: CapacityRule, p: Pool, caller: Waiter, launch: Launch, id: Id): (r: Acquired)
    ensures r.Parked? <==> !HasRoom(rule, p)
    ensures r.Parked? ==> r.next == p.(waiting := p.waiting + [caller])
    ensures r.AcquireFailed? <==> HasRoom(rule, p) && launch.LaunchFailed?
    ensures r.AcquireFailed? ==> r.next == p && r.error == launch.error
    ensures r.Granted? ==> && launch == Launched(r.grant.browser) && r.grant.id == id
                           && id in r.next.active && r.next.active[id] == r.grant.browser
                           && (forall k :: k != id ==> (k in r.next.active <==> k in p.active))
                           && (forall k :: k != id && k in p.active ==> r.next.active[k] == p.active[k])
                           && r.next.waiting == p.waiting && r.next.pool == p.pool
                           && r.next.maxSize == p.maxSize
    ensures r.Granted? && id !in p.active ==> |r.next.active| == |p.active| + 1
  {
    if HasRoom(rule, p) then
      match launch
      case Launched(b) => Granted(p.(active := p.active[id := b]), Grant(b, id))
      case LaunchFailed(e) => AcquireFailed(p, e)
    else
      Parked(p.(waiting := p.waiting + [caller]))
  }

  /** The earliest parked caller and what it was resolved with. */
  datatype Handoff = Handoff(waiter: Waiter, grant: Grant)

  /**
    The state after `release`, the browser it killed, the parked caller it
    served, and the error it threw (a failed replacement launch).
  */
  datatype Released = Released(next: Pool, killed: Option<Browser>, handoff: Option<Handoff>, error: Option<string>)

  /**
    `release(id)`: forget `id` and kill its browser (a failing kill is
    swallowed, so its outcome changes nothing here); then, if a caller is
    parked, launch a replacement, register it under `newId` and resolve the
    earliest parked caller with it.
  */
  function Release(p: Pool, id: Id, launch: Launch, newId: Id): (r: Released)
    ensures id !in p.active ==> r == Released(p, None, None, None)
    ensures id in p.active ==> r.killed == Some(p.active[id])
    ensures r.next.pool == p.pool && r.next.maxSize == p.maxSize
    ensures r.handoff.Some? <==> id in p.active && |p.waiting| > 0 && launch.Launched?
    ensures r.error.Some? <==> id in p.active && |p.waiting| > 0 && launch.LaunchFailed?
    ensures r.handoff.None? ==> && r.next.waiting == p.waiting
                                && (forall k :: k in r.next.active <==> k in p.active && k != id)
                                && (forall k :: k in r.next.active ==> r.next.active[k] == p.active[k])
    ensures r.handoff.Some? ==> && r.next.waiting == p.waiting[1..]
                                && r.handoff.value.waiter == p.waiting[0]
                                && r.handoff.value.grant == Grant(launch.browser, newId)
                                && newId in r.next.active && r.next.active[newId] == launch.browser
                                && (forall k :: k != newId ==> (k in r.next.active <==> k in p.active && k != id))
                                && (forall k :: k != newId && k in r.next.active ==> r.next.active[k] == p.active[k])
  {
    if id !in p.active then Released(p, None, None, None)
    else
      var browser := p.active[id];
      var q := p.(active := p.active - {id});
      if |q.waiting| == 0 then Released(q, Some(browser), None, None)
      else
        match launch
        case LaunchFailed(e) => Released(q, Some(browser), None, Some(e))
        case Launched(b) =>
          Released(q.(active := q.active[newId := b], waiting := q.waiting[1..]),
                   Some(browser), Some(Handoff(q.waiting[0], Grant(b, newId))), None)
  }

  datatype Cleaned = Cleaned(next: Pool, killed: set<Browser>)

  /**
    `cleanup()`: kill every registered browser (each failing kill is
    swallowed), forget them all and reset `pool`. Parked callers stay parked
    and the pool keeps accepting `acquire` calls.
  */
  function Cleanup(p: Pool): (r: Cleaned)
    ensures r.next.active == map[] && r.next.pool == []
    ensures r.next.waiting == p.waiting && r.next.maxSize == p.maxSize
    ensures forall b :: b in r.killed <==> exists k :: k in p.active && p.active[k] == b
  {
    Cleaned(p.(active := map[], pool := []), p.active.Values)
  }

  // ---------------------------------------------------------------------------
  // Sequences of operations
  // ---------------------------------------------------------------------------

  datatype Op =
    | AcquireCall(caller: Waiter, launch: Launch, id: Id)
    | ReleaseCall(id: Id, launch: Launch, newId: Id)
    | CleanupCall

  /** A pool together with the callers parked so far and the callers served so far, in order. */
  datatype History = History(pool: Pool, parked: seq<Waiter>, served: seq<Waiter>)

  function Step(rule: CapacityRule, h: History, op: Op): (r: History)
    ensures r.pool.maxSize == h.pool.maxSize
  {
    match op
    case AcquireCall(caller, launch, id) =>
      (match Acquire(rule, h.pool, caller, launch, id)
       case Granted(next, _) => h.(pool := next)
       case Parked(next) => History(next, h.parked + [caller], h.served)
       case AcquireFailed(next, _) => h.(pool := next))
    case ReleaseCall(id, launch, newId) =>
      var r := Release(h.pool, id, launch, newId);
      History(r.next, h.parked, h.served + (if r.handoff.Some? then [r.handoff.value.waiter] else []))
    case CleanupCall => h.(pool := Cleanup(h.pool).next)
  }

  /** The operations applied one after another. */
  function Run(rule: CapacityRule, h: History, ops: seq<Op>): (r: History)
    ensures r.pool.maxSize == h.pool.maxSize
    ensures h.parked <= r.parked && h.served <= r.served
    decreases |ops|
  {
    if |ops| == 0 then h
    else
      var s := Step(rule, h, ops[0]);
      var r := Run(rule, s, ops[1..]);
      assert h.parked <= s.parked && h.served <= s.served;
      PrefixTransitive(h.parked, s.parked, r.parked);
      PrefixTransitive(h.served, s.served, r.served);
      r
  }

  lemma PrefixTransitive<T>(a: seq<T>, b: seq<T>, c: seq<T>)
    requires a <= b && b <= c
    ensures a <= c
  {
    assert a == b[..|a|] && b == c[..|b|];
    assert c[..|b|][..|a|] == c[..|a|];
  }

  /** `pool` is never appended to: starting empty, it stays empty whatever happens. */
  lemma {:induction false} PoolStaysEmpty(rule: CapacityRule, h: History, ops: seq<Op>)
    requires h.pool.pool == []
    ensures Run(rule, h, ops).pool.pool == []
    decreases |ops|
  {
    if |ops| > 0 {
      PoolStaysEmpty(rule, Step(rule, h, ops[0]), ops[1..]);
    }
  }

  /**
    Parked callers are served first in, first out: the queue at the start
    followed by everyone parked since equals everyone served since followed by
    the queue at the end.
  */
  lemma {:induction false} ServedInOrder(rule: CapacityRule, h: History, ops: seq<Op>)
    requires h.parked == [] && h.served == []
    ensures var r := Run(rule, h, ops);
      h.pool.waiting + r.parked == r.served + r.pool.waiting
  {
    QueueInvariant(rule, h.pool.waiting, h, ops);
  }

  lemma {:induction false} QueueInvariant(rule: CapacityRule, w: seq<Waiter>, h: History, ops: seq<Op>)
    requires w + h.parked == h.served + h.pool.waiting
    ensures var r := Run(rule, h, ops);
      w + r.parked == r.served + r.pool.waiting
    decreases |ops|
  {
    if |ops| > 0 {
      QueueStep(rule, w, h, ops[0]);
      QueueInvariant(rule, w, Step(rule, h, ops[0]), ops[1..]);
    }
  }

  /** One operation keeps the queue balance: what was queued or parked is served or still queued. */
  lemma QueueStep(rule: CapacityRule, w: seq<Waiter>, h: History, op: Op)
    requires w + h.parked == h.served + h.pool.waiting
    ensures var s := Step(rule, h, op);
      w + s.parked == s.served + s.pool.waiting
  {
    var s := Step(rule, h, op);
    match op {
      case AcquireCall(caller, launch, id) =>
        if !HasRoom(rule, h.pool) {
          assert w + s.parked == (w + h.parked) + [caller];
          assert s.served + s.pool.waiting == (h.served + h.pool.waiting) + [caller];
        }
      case ReleaseCall(id, launch, newId) =>
        var r := Release(h.pool, id, launch, newId);
        if r.handoff.Some? {
          var ws := h.pool.waiting;
          assert ws == [ws[0]] + ws[1..];
          assert s.served + s.pool.waiting == h.served + ([ws[0]] + ws[1..]);
        }
      case CleanupCall =>
    }
  }

  /**
    As written, with a positive `maxSize`, no call is ever parked: the wait
    branch of `acquire` is unreachable, so parked callers are never added.
  */
  lemma {:induction false} AsWrittenNeverParks(h: History, ops: seq<Op>)
    requires h.pool.pool == [] && h.pool.maxSize > 0
    ensures Run(PoolLength, h, ops).parked == h.parked
    decreases |ops|
  {
    if |ops| > 0 {
      var s := Step(PoolLength, h, ops[0]);
      assert s.parked == h.parked;
      assert s.pool.pool == [] by {
        PoolStaysEmpty(PoolLength, h, ops[..1]);
        assert Run(PoolLength, h, ops[..1]) == Run(PoolLength, s, []);
      }
      AsWrittenNeverParks(s, ops[1..]);
    }
  }

  /** Acquisitions that all launch successfully, one per id. */
  function AcquireAll(ids: seq<Id>): (ops: seq<Op>)
    ensures |ops| == |ids|
    ensures forall k :: 0 <= k < |ids| ==> ops[k] == AcquireCall(0, Launched(Browser(0)), ids[k])
  {
    if |ids| == 0 then [] else [AcquireCall(0, Launched(Browser(0)), ids[0])] + AcquireAll(ids[1..])
  }

  predicate Distinct(ids: seq<Id>) {
    forall j, k :: 0 <= j < k < |ids| ==> ids[j] != ids[k]
  }

  /**
    As written, the number of browsers handed out is not bounded by `maxSize`:
    every acquisition with a fresh id adds one more.
  */
  lemma {:induction false} AsWrittenUnbounded(h: History, ids: seq<Id>)
    requires h.pool.pool == [] && h.pool.maxSize > 0
    requires Distinct(ids) && forall k :: 0 <= k < |ids| ==> ids[k] !in h.pool.active
    ensures |Run(PoolLength, h, AcquireAll(ids)).pool.active| == |h.pool.active| + |ids|
    decreases |ids|
  {
    if |ids| > 0 {
      var ops := AcquireAll(ids);
      var s := Step(PoolLength, h, ops[0]);
      assert |s.pool.active| == |h.pool.active| + 1;
      assert ops[1..] == AcquireAll(ids[1..]);
      forall k | 0 <= k < |ids[1..]| ensures ids[1..][k] !in s.pool.active {
        assert ids[1..][k] == ids[k + 1] && ids[k + 1] != ids[0];
      }
      AsWrittenUnbounded(s, ids[1..]);
    }
  }

  /** With a limit of one browser, two requests as written hold two browsers at once. */
  lemma AsWrittenExceedsMaxSize()
    ensures var r := Run(PoolLength, History(NewPool(1), [], []), AcquireAll(["a", "b"]));
      |r.pool.active| == 2 > r.pool.maxSize && r.parked == []
  {
    var h := History(NewPool(1), [], []);
    AsWrittenUnbounded(h, ["a", "b"]);
    AsWrittenNeverParks(h, AcquireAll(["a", "b"]));
  }

  /** Under the corrected capacity test, the number of browsers handed out never exceeds `maxSize`. */
  lemma {:induction false} ActiveCountBounded(h: History, ops: seq<Op>)
    requires |h.pool.active| <= h.pool.maxSize
    ensures |Run(ActiveCount, h, ops).pool.active| <= h.pool.maxSize
    decreases |ops|
  {
    if |ops| > 0 {
      var s := Step(ActiveCount, h, ops[0]);
      if ops[0].ReleaseCall? && ops[0].id in h.pool.active {
        ReleaseShrinks(h.pool, ops[0].id, ops[0].launch, ops[0].newId);
      }
      ActiveCountBounded(s, ops[1..]);
    }
  }

  /** A release of a registered id never grows the number of browsers handed out. */
  lemma ReleaseShrinks(p: Pool, id: Id, launch: Launch, newId: Id)
    requires id in p.active
    ensures |Release(p, id, launch, newId).next.active| <= |p.active|
  {
    var rest := p.active - {id};
    assert rest.Keys == p.active.Keys - {id};
    assert |rest.Keys| == |p.active.Keys| - 1;
  }

  /** Under the corrected test, a full pool parks the caller instead of launching. */
  lemma FullPoolParks(p: Pool, caller: Waiter, launch: Launch, id: Id)
    requires |p.active| >= p.maxSize
    ensures Acquire(ActiveCount, p, caller, launch, id).Parked?
  {
  }

  /** Releasing an id twice: the second call finds nothing and changes nothing. */
  lemma ReleaseTwiceIsNoOp(p: Pool, id: Id, l1: Launch, n1: Id, l2: Launch, n2: Id)
    requires n1 != id
    ensures var q := Release(p, id, l1, n1).next;
      Release(q, id, l2, n2) == Released(q, None, None, None)
  {
  }

  /** `cleanup` does not shut the pool: a positive limit still grants the next acquisition. */
  lemma AcquireAfterCleanup(rule: CapacityRule, p: Pool, caller: Waiter, b: Browser, id: Id)
    requires p.maxSize > 0
    ensures Acquire(rule, Cleanup(p).next, caller, Launched(b), id).Granted?
  {
  }
}

=== FILE: clicking.dfy ===
/**
  The click-and-check loop shared by server.js and main.js: up to `limit`
  iterations, each clicking the fixed target, sleeping, and looking for the
  `cf_clearance` cookie, leaving at the first iteration that finds it. A
  rejected CDP call ends the loop with an error.
*/
module Clicking {
  import opened Base
  import opened Cookies
  import opened Trace

  /**
    What the browser does in one loop iteration: whether the press dispatch and
    the release dispatch resolve, and the `Network.getAllCookies` snapshot
    (None when that call rejects).
  */
  datatype Round = Round(pressOk: bool, releaseOk: bool, cookies: Option<seq<Cookie>>)

  predicate Clicked(rd: Round) {
    rd.pressOk && rd.releaseOk
  }

  /** An iteration that completes without finding the cookie. */
  predicate Miss(rd: Round) {
    Clicked(rd) && rd.cookies.Some? && !HasClearance(rd.cookies.value)
  }

  /** An iteration whose check finds the cookie. */
  predicate Hit(rd: Round) {
    Clicked(rd) && rd.cookies.Some? && HasClearance(rd.cookies.value)
  }

  /** The first `cf_clearance` cookie of a hitting iteration. */
  function HitCookie(rd: Round): Cookie
    requires Hit(rd)
  {
    FindClearance(rd.cookies.value).value
  }

  /** Events of one iteration: the click, then (once it resolved) the sleep and the check. */
  function RoundEvents(rd: Round): seq<Event> {
    Click(ClickX, ClickY, rd.pressOk) + (if Clicked(rd) then [Slept, CookiesChecked] else [])
  }

  /** A completed click contributes one press, one release and one check; otherwise no check. */
  lemma RoundCounts(rd: Round)
    ensures Clicked(rd) ==> Count(RoundEvents(rd), CookiesChecked) == 1
    ensures Clicked(rd) ==> Count(RoundEvents(rd), Press(ClickX, ClickY)) == 1
    ensures Clicked(rd) ==> Count(RoundEvents(rd), Release(ClickX, ClickY)) == 1
    ensures !Clicked(rd) ==> Count(RoundEvents(rd), CookiesChecked) == 0
  {
    var p, q := Press(ClickX, ClickY), Release(ClickX, ClickY);
    var e := RoundEvents(rd);
    if Clicked(rd) {
      assert e == [p, q, Slept, CookiesChecked];
    } else if rd.pressOk {
      assert e == [p, q];
    } else {
      assert e == [p];
    }
    forall x ensures Count(e, x) == CountLiteral(e, x) {
      CountOfShort(e, x);
    }
  }

  datatype LoopOutcome = Found(cookie: Cookie) | Exhausted | Failed

  /** How the loop ended, the iteration it ended in (limit when exhausted), and its events. */
  datatype LoopEnd = LoopEnd(outcome: LoopOutcome, stop: nat, trace: seq<Event>)

  /** The `for (let i = 0; i < maxIterations; i++)` loop, from iteration i on. */
  function ClickLoop(limit: nat, rounds: nat -> Round, i: nat): (r: LoopEnd)
    requires i <= limit
    ensures i <= r.stop <= limit
    ensures forall k :: i <= k < r.stop ==> Miss(rounds(k))
    ensures r.outcome.Exhausted? <==> r.stop == limit
    ensures r.outcome.Found? ==> Hit(rounds(r.stop)) && r.outcome.cookie == HitCookie(rounds(r.stop))
    ensures r.outcome.Failed? ==> !Miss(rounds(r.stop)) && !Hit(rounds(r.stop))
    decreases limit - i
  {
    if i == limit then LoopEnd(Exhausted, i, [])
    else
      var rd := rounds(i);
      var events := RoundEvents(rd);
      if !Clicked(rd) then LoopEnd(Failed, i, events)
      else
        match rd.cookies
        case None => LoopEnd(Failed, i, events)
        case Some(cookies) =>
          match FindClearance(cookies)
          case Some(c) => LoopEnd(Found(c), i, events)
          case None =>
            var rest := ClickLoop(limit, rounds, i + 1);
            LoopEnd(rest.outcome, rest.stop, events + rest.trace)
  }

  /**
    The loop's events: each check comes right after a full click and the
    sleep, a successful check is the last event (no click follows it), and
    nothing but left, single-count presses and releases at the fixed point,
    sleeps and checks happens inside the loop.
  */
  lemma {:induction false} LoopShape(limit: nat, rounds: nat -> Round, i: nat)
    requires i <= limit
    ensures var r := ClickLoop(limit, rounds, i);
      && ChecksFollowClicks(r.trace)
      && (r.outcome.Found? ==> |r.trace| > 0 && r.trace[|r.trace| - 1] == CookiesChecked)
      && (forall e :: e in r.trace ==> e == Press(ClickX, ClickY) || e == Release(ClickX, ClickY) || e == Slept || e == CookiesChecked)
    decreases limit - i
  {
    if i < limit {
      var rd := rounds(i);
      var events := RoundEvents(rd);
      assert ChecksFollowClicks(events);
      if Miss(rd) {
        var rest := ClickLoop(limit, rounds, i + 1);
        LoopShape(limit, rounds, i + 1);
        ChecksFollowClicksAppend(events, rest.trace);
        assert ClickLoop(limit, rounds, i).trace == events + rest.trace;
      } else {
        assert ClickLoop(limit, rounds, i).trace == events;
      }
    } else {
      assert ClickLoop(limit, rounds, i).trace == [];
    }
  }

  /**
    The loop's counts: at most limit - i checks, and when no error
    occurred one check per clean miss plus one for the hit, with exactly as
    many presses and releases as checks.
  */
  lemma {:induction false} LoopCounts(limit: nat, rounds: nat -> Round, i: nat)
    requires i <= limit
    ensures var r := ClickLoop(limit, rounds, i);
      && Count(r.trace, CookiesChecked) <= limit - i
      && (!r.outcome.Failed? ==>
            && Count(r.trace, CookiesChecked) == r.stop - i + (if r.outcome.Found? then 1 else 0)
            && Count(r.trace, Press(ClickX, ClickY)) == Count(r.trace, CookiesChecked)
            && Count(r.trace, Release(ClickX, ClickY)) == Count(r.trace, CookiesChecked))
    decreases limit - i
  {
    if i < limit {
      var rd := rounds(i);
      var events := RoundEvents(rd);
      var r := ClickLoop(limit, rounds, i);
      RoundCounts(rd);
      if Miss(rd) {
        var rest := ClickLoop(limit, rounds, i + 1);
        LoopCounts(limit, rounds, i + 1);
        assert r == LoopEnd(rest.outcome, rest.stop, events + rest.trace);
        CountAppend(events, rest.trace, CookiesChecked);
        CountAppend(events, rest.trace, Press(ClickX, ClickY));
        CountAppend(events, rest.trace, Release(ClickX, ClickY));
      } else if Hit(rd) {
        assert r == LoopEnd(Found(HitCookie(rd)), i, events);
      } else {
        assert r == LoopEnd(Failed, i, events);
      }
    } else {
      assert ClickLoop(limit, rounds, i).trace == [];
    }
  }

  /**
    The loop's decision: it runs out exactly when every one of the
    limit checks missed without error, and it finds a cookie exactly
    when some iteration hits after clean misses only, with that iteration's
    first `cf_clearance` value.
  */
  lemma LoopDecision(limit: nat, rounds: nat -> Round)
    ensures var l := ClickLoop(limit, rounds, 0);
      && (l.outcome.Exhausted? <==> forall k :: 0 <= k < limit ==> Miss(rounds(k)))
      && (l.outcome.Found? <==> exists k :: FirstHit(limit, rounds, k))
      && (forall k :: l.outcome.Found? && FirstHit(limit, rounds, k) ==> l.outcome.cookie == HitCookie(rounds(k)))
  {
    var l := ClickLoop(limit, rounds, 0);
    if l.outcome.Found? {
      assert FirstHit(limit, rounds, l.stop);
      forall k: nat | FirstHit(limit, rounds, k) ensures k == l.stop {
        FirstHitUnique(limit, rounds, k, l.stop);
      }
    } else {
      forall k: nat ensures !FirstHit(limit, rounds, k) {
        if k < l.stop {
          assert Miss(rounds(k));
        }
      }
    }
    if !l.outcome.Exhausted? {
      assert !Miss(rounds(l.stop));
    }
  }

  /** Iteration k finds the cookie and every earlier iteration missed cleanly. */
  predicate FirstHit(limit: nat, rounds: nat -> Round, k: nat) {
    k < limit && Hit(rounds(k)) && forall j :: 0 <= j < k ==> Miss(rounds(j))
  }

  lemma FirstHitUnique(limit: nat, rounds: nat -> Round, k: nat, k': nat)
    requires FirstHit(limit, rounds, k) && FirstHit(limit, rounds, k')
    ensures k == k'
  {
  }

  /** The events of a run whose setup succeeded: the launch, the connection, then the loop's events. */
  lemma SetUpLoop(limit: nat, rounds: nat -> Round)
    ensures var events := [ChromeLaunched, ClientConnected] + ClickLoop(limit, rounds, 0).trace;
      && ChecksFollowClicks(events)
      && Count(events, CookiesChecked) <= limit
      && (forall e :: e in events ==>
            e == Press(ClickX, ClickY) || e == Release(ClickX, ClickY) || e == Slept || e == CookiesChecked
            || e == ChromeLaunched || e == ClientConnected)
      && ChromeLaunched in events && ClientConnected in events
  {
    var l := ClickLoop(limit, rounds, 0);
    var head := [ChromeLaunched, ClientConnected];
    var events := head + l.trace;
    LoopShape(limit, rounds, 0);
    LoopCounts(limit, rounds, 0);
    assert ChecksFollowClicks(head) by {
      assert CheckFollowsClick(head, 0) && CheckFollowsClick(head, 1);
    }
    ChecksFollowClicksAppend(head, l.trace);
    CountAppend(head, l.trace, CookiesChecked);
    CountOfShort(head, CookiesChecked);
    assert forall x :: x in events <==> x in head || x in l.trace;
    assert events[0] == ChromeLaunched && events[1] == ClientConnected;
  }
}

=== FILE: cookies.dfy ===
/**
  Cookie detection shared by all three programs: the lookup of the first cookie
  named `cf_clearance` in a `Network.getAllCookies` snapshot, and the
  `set-cookie` response-header listener of server2.js, which is a substring test
  followed by the regular expression `cf_clearance=([^;]+)` (not a full
  Set-Cookie parse).
*/
module Cookies {
  import opened Base

  /** The two cookie attributes the programs read. */
  datatype Cookie = Cookie(name: string, value: string)

  const ClearanceName: string := "cf_clearance"

  predicate IsClearance(c: Cookie) {
    c.name == ClearanceName
  }

  predicate HasClearance(cookies: seq<Cookie>) {
    exists j :: 0 <= j < |cookies| && IsClearance(cookies[j])
  }

  /** Index of the first cookie named `cf_clearance`, scanning front to back as `Array.prototype.find` does. */
  function FirstClearance(cookies: seq<Cookie>): (r: Option<nat>)
    ensures r.None? <==> !HasClearance(cookies)
    ensures r.Some? ==> r.value < |cookies| && IsClearance(cookies[r.value])
    ensures r.Some? ==> forall j :: 0 <= j < r.value ==> !IsClearance(cookies[j])
  {
    if |cookies| == 0 then None
    else if IsClearance(cookies[0]) then Some(0)
    else
      assert forall j :: 1 <= j < |cookies| ==> cookies[j] == cookies[1..][j - 1];
      match FirstClearance(cookies[1..])
      case None => None
      case Some(k) => Some(k + 1)
  }

  /** `cookies.find(c => c.name === 'cf_clearance')`: the first cookie so named, if any. */
  function FindClearance(cookies: seq<Cookie>): (r: Option<Cookie>)
    ensures r.Some? <==> HasClearance(cookies)
    ensures r.Some? ==> IsClearance(r.value)
    ensures r.Some? ==> exists k :: 0 <= k < |cookies| && cookies[k] == r.value
                                    && forall j :: 0 <= j < k ==> !IsClearance(cookies[j])
  {
    match FirstClearance(cookies)
    case None => None
    case Some(k) => Some(cookies[k])
  }

  // ---------------------------------------------------------------------------
  // The set-cookie header listener (server2.js)
  // ---------------------------------------------------------------------------

  const ClearancePrefix: string := "cf_clearance="

  /** t occurs in s at position k. */
  predicate OccursAt(s: string, t: string, k: nat) {
    k + |t| <= |s| && s[k..k + |t|] == t
  }

  /** `String.prototype.includes`. */
  predicate Includes(s: string, t: string) {
    exists k :: 0 <= k <= |s| && OccursAt(s, t, k)
  }

  /** The regular expression `cf_clearance=([^;]+)` can match starting at position k of s. */
  predicate MatchesAt(s: string, k: nat) {
    && k + |ClearancePrefix| < |s|
    && s[k..k + |ClearancePrefix|] == ClearancePrefix
    && s[k + |ClearancePrefix|] != ';'
  }

  /**
    What the capture group `([^;]+)` holds when the leftmost match starts at k:
    the longest run of characters other than ';' after the prefix.
  */
  predicate CapturedAt(s: string, k: nat, v: string) {
    && MatchesAt(s, k)
    && (forall j :: 0 <= j < k ==> !MatchesAt(s, j))
    && var b := k + |ClearancePrefix|;
       && b + |v| <= |s|
       && s[b..b + |v|] == v
       && (b + |v| == |s| || s[b + |v|] == ';')
       && (forall c :: c in v ==> c != ';')
  }

  /** Length of the longest run of non-';' characters of s starting at k. */
  function SemicolonFreeRun(s: string, k: nat): (n: nat)
    requires k <= |s|
    ensures k + n <= |s|
    ensures forall j :: k <= j < k + n ==> s[j] != ';'
    ensures k + n == |s| || s[k + n] == ';'
    decreases |s| - k
  {
    if k == |s| || s[k] == ';' then 0 else 1 + SemicolonFreeRun(s, k + 1)
  }

  /** Leftmost position at or after k where the regular expression matches. */
  function MatchStart(s: string, k: nat): (r: Option<nat>)
    ensures r.None? ==> forall j :: k <= j ==> !MatchesAt(s, j)
    ensures r.Some? ==> k <= r.value && MatchesAt(s, r.value)
    ensures r.Some? ==> forall j :: k <= j < r.value ==> !MatchesAt(s, j)
    decreases |s| - k
  {
    if k + |ClearancePrefix| >= |s| then None
    else if MatchesAt(s, k) then Some(k)
    else MatchStart(s, k + 1)
  }

  /** `s.match(/cf_clearance=([^;]+)/)?.[1]`. */
  function MatchClearance(s: string): (r: Option<string>)
    ensures r.None? <==> forall k :: 0 <= k ==> !MatchesAt(s, k)
    ensures r.Some? ==> exists k :: 0 <= k && CapturedAt(s, k, r.value)
    ensures r.Some? ==> |r.value| > 0 && forall c :: c in r.value ==> c != ';'
  {
    match MatchStart(s, 0)
    case None => None
    case Some(k) =>
      var b := k + |ClearancePrefix|;
      var v := s[b..b + SemicolonFreeRun(s, b)];
      assert forall c :: c in v ==> c != ';' by {
        forall c | c in v ensures c != ';' {
          var i :| 0 <= i < |v| && v[i] == c;
          assert s[b + i] == c;
        }
      }
      assert v[0] == s[b];
      assert CapturedAt(s, k, v);
      Some(v)
  }

  /** Whenever the expression matches, the string also contains "cf_clearance". */
  lemma MatchImpliesIncludes(s: string)
    ensures MatchClearance(s).Some? ==> s != "" && Includes(s, ClearanceName)
  {
    if MatchClearance(s).Some? {
      var k := MatchStart(s, 0).value;
      assert MatchesAt(s, k);
      var pre := s[k..k + |ClearancePrefix|];
      assert pre == ClearancePrefix;
      assert ClearancePrefix[..|ClearanceName|] == ClearanceName;
      forall j | 0 <= j < |ClearanceName| ensures s[k + j] == ClearanceName[j] {
        assert s[k + j] == pre[j];
      }
      assert s[k..k + |ClearanceName|] == ClearanceName;
      assert OccursAt(s, ClearanceName, k);
    }
  }

  /** The regular expression determines its capture uniquely. */
  lemma CaptureIsUnique(s: string, k: nat, v: string, k': nat, v': string)
    requires CapturedAt(s, k, v) && CapturedAt(s, k', v')
    ensures k == k' && v == v'
  {
    assert k == k';
    var b := k + |ClearancePrefix|;
    forall j | b <= j < b + |v| ensures s[j] != ';' {
      assert s[j] == v[j - b] && v[j - b] in v;
    }
    forall j | b <= j < b + |v'| ensures s[j] != ';' {
      assert s[j] == v'[j - b] && v'[j - b] in v';
    }
  }

  /**
    What the listener takes from one response's `set-cookie` header: nothing
    when the header is absent or does not include "cf_clearance", else the
    capture of the regular expression, when it matches.
  */
  function HeaderToken(setCookie: Option<string>): (r: Option<string>)
    ensures setCookie.None? ==> r.None?
    ensures r.Some? ==> setCookie.Some? && exists k :: 0 <= k && CapturedAt(setCookie.value, k, r.value)
    ensures r.Some? ==> |r.value| > 0 && forall c :: c in r.value ==> c != ';'
  {
    if setCookie.Some? && setCookie.value != "" && Includes(setCookie.value, ClearanceName) then
      MatchClearance(setCookie.value)
    else
      None
  }

  /** The substring test in front of the regular expression never changes its verdict. */
  lemma HeaderTokenIsMatch(setCookie: Option<string>)
    ensures setCookie.None? ==> HeaderToken(setCookie).None?
    ensures setCookie.Some? ==> HeaderToken(setCookie) == MatchClearance(setCookie.value)
  {
    if setCookie.Some? {
      MatchImpliesIncludes(setCookie.value);
    }
  }

  /** One call of the `responseReceivedExtraInfo` listener on the current `cfClearance`. */
  function OnHeader(token: Option<string>, setCookie: Option<string>): (r: Option<string>)
    ensures setCookie.None? ==> r == token
    ensures r != token ==> Truthy(r)
    ensures Truthy(token) ==> Truthy(r)
  {
    match HeaderToken(setCookie)
    case Some(v) => Some(v)
    case None => token
  }

  /** The listener applied to the headers in delivery order. */
  function OnHeaders(token: Option<string>, headers: seq<Option<string>>): (r: Option<string>)
    ensures r != token ==> Truthy(r)
    ensures Truthy(token) ==> Truthy(r)
    decreases |headers|
  {
    if |headers| == 0 then token else OnHeaders(OnHeader(token, headers[0]), headers[1..])
  }

  /**
    Of the headers delivered in order, the last that yields a value wins; when
    none does, `cfClearance` keeps its value.
  */
  lemma {:induction false} LastHeaderWins(token: Option<string>, headers: seq<Option<string>>)
    ensures (forall k :: 0 <= k < |headers| ==> HeaderToken(headers[k]).None?) ==> OnHeaders(token, headers) == token
    ensures forall k :: 0 <= k < |headers| && HeaderToken(headers[k]).Some?
                        && (forall j :: k < j < |headers| ==> HeaderToken(headers[j]).None?)
                        ==> OnHeaders(token, headers) == HeaderToken(headers[k])
    decreases |headers|
  {
    if |headers| > 0 {
      var rest := headers[1..];
      assert forall j :: 1 <= j < |headers| ==> headers[j] == rest[j - 1];
      LastHeaderWins(OnHeader(token, headers[0]), rest);
    }
  }

  /** Headers delivered in two stretches leave `cfClearance` as the whole sequence delivered at once does. */
  lemma {:induction false} OnHeadersAppend(token: Option<string>, a: seq<Option<string>>, b: seq<Option<string>>)
    ensures OnHeaders(token, a + b) == OnHeaders(OnHeaders(token, a), b)
    decreases |a|
  {
    if |a| == 0 {
      assert a + b == b;
    } else {
      assert (a + b)[0] == a[0] && (a + b)[1..] == a[1..] + b;
      OnHeadersAppend(OnHeader(token, a[0]), a[1..], b);
    }
  }
}

=== FILE: pooled_server.dfy ===
/**
  server2.js's request path: `processSingleRequest` takes a browser from the
  pool, connects over CDP, listens for `set-cookie` headers, navigates, polls
  the cookie jar up to 30 times a second apart, and always releases the
  browser in its `finally`; the `/get-cf-clearance` route maps the outcome to
  an HTTP status.
*/
module PooledServer {
  import opened Base
  import opened Cookies
  import opened BrowserPool

  const PollLimit: int := 30

  /**
    One iteration of the wait loop: the `set-cookie` headers the listener sees
    while the iteration sleeps and enumerates, and the `Network.getAllCookies`
    snapshot (None when that call rejects).
  */
  datatype Poll = Poll(headers: seq<Option<string>>, cookies: Option<seq<Cookie>>)

  /**
    What the `Network.responseReceivedExtraInfo` listener makes of
    `cfClearance` given the headers of one stretch of the request; the
    request registers `OnHeaders`.
  */
  type Listener = (Option<string>, seq<Option<string>>) -> Option<string>

  /** An iteration whose enumeration succeeds without a `cf_clearance` cookie. */
  predicate PollMiss(pl: Poll) {
    pl.cookies.Some? && !HasClearance(pl.cookies.value)
  }

  /** A listener that never turns a truthy `cfClearance` falsy. */
  ghost predicate KeepsTruthy(listen: Listener) {
    forall t, hs :: Truthy(t) ==> Truthy(listen(t, hs))
  }

  /** The listener of server2.js only ever writes a non-empty capture. */
  lemma OnHeadersKeepsTruthy()
    ensures KeepsTruthy(OnHeaders)
  {
  }

  /**
    `cfClearance` at the start of iteration k, when every iteration from i on
    missed: once truthy, it stays truthy under a listener that keeps it so.
  */
  function TokenAt(listen: Listener, token: Option<string>, polls: nat -> Poll, i: nat, k: nat): (r: Option<string>)
    requires i <= k
    ensures k == i ==> r == token
    ensures KeepsTruthy(listen) && Truthy(token) ==> Truthy(r)
    decreases k - i
  {
    if k == i then token else TokenAt(listen, listen(token, polls(i).headers), polls, i + 1, k)
  }

  datatype Stop = TokenSeen | CookieFound | LimitReached | EnumerationFailed

  /** The value of `cfClearance` when the loop ends, how many enumerations it made, and why it ended. */
  datatype PollEnd = PollEnd(token: Option<string>, enumerations: nat, stop: Stop)

  /**
    `for (let i = 0; i < 30; i++)` from iteration i on: leave when
    `cfClearance` is truthy, else sleep (headers arrive), enumerate the
    cookies and leave with the first `cf_clearance` cookie's value, if any.
  */
  function PollLoop(listen: Listener, token: Option<string>, polls: nat -> Poll, i: nat): (r: PollEnd)
    requires i <= PollLimit
    ensures r.enumerations <= PollLimit - i
    ensures r.stop.TokenSeen? ==> i + r.enumerations < PollLimit && Truthy(r.token)
    ensures r.stop.LimitReached? ==> r.enumerations == PollLimit - i
    ensures r.stop.CookieFound? || r.stop.EnumerationFailed? ==> r.enumerations >= 1
    decreases PollLimit - i
  {
    if i == PollLimit then PollEnd(token, 0, LimitReached)
    else if Truthy(token) then PollEnd(token, 0, TokenSeen)
    else
      var pl := polls(i);
      var t := listen(token, pl.headers);
      match pl.cookies
      case None => PollEnd(t, 1, EnumerationFailed)
      case Some(cookies) =>
        match FindClearance(cookies)
        case Some(c) => PollEnd(Some(c.value), 1, CookieFound)
        case None =>
          var rest := PollLoop(listen, t, polls, i + 1);
          PollEnd(rest.token, rest.enumerations + 1, rest.stop)
  }

  /** The headers the listener sees during iterations i up to k, in delivery order. */
  function HeadersBetween(polls: nat -> Poll, i: nat, k: nat): seq<Option<string>>
    requires i <= k
    decreases k - i
  {
    if k == i then [] else polls(i).headers + HeadersBetween(polls, i + 1, k)
  }

  /**
    Under server2.js's listener, `cfClearance` at iteration k is the listener
    applied once to every header delivered from iteration i on.
  */
  lemma {:induction false} TokenAtOnHeaders(token: Option<string>, polls: nat -> Poll, i: nat, k: nat)
    requires i <= k
    ensures TokenAt(OnHeaders, token, polls, i, k) == OnHeaders(token, HeadersBetween(polls, i, k))
    decreases k - i
  {
    if i < k {
      var hs := polls(i).headers;
      TokenAtOnHeaders(OnHeaders(token, hs), polls, i + 1, k);
      OnHeadersAppend(token, hs, HeadersBetween(polls, i + 1, k));
    }
  }

  /** TokenAt past its first iteration. */
  lemma TokenAtStep(listen: Listener, token: Option<string>, polls: nat -> Poll, i: nat, k: nat)
    requires i < k
    ensures TokenAt(listen, token, polls, i, k) == TokenAt(listen, listen(token, polls(i).headers), polls, i + 1, k)
  {
  }

  /** One iteration of the loop: leave at once, enumerate and leave, or miss and go on. */
  lemma PollStep(listen: Listener, token: Option<string>, polls: nat -> Poll, i: nat)
    requires i <= PollLimit
    ensures var r := PollLoop(listen, token, polls, i);
      && (i == PollLimit || Truthy(token) ==> r.enumerations == 0 && r.token == token)
      && (i < PollLimit && !Truthy(token) && !PollMiss(polls(i)) ==>
            r.enumerations == 1 && (r.stop.CookieFound? || r.stop.EnumerationFailed?))
      && (i < PollLimit && !Truthy(token) && PollMiss(polls(i)) ==>
            var rest := PollLoop(listen, listen(token, polls(i).headers), polls, i + 1);
            r == PollEnd(rest.token, rest.enumerations + 1, rest.stop))
  {
  }

  /**
    The loop leaves as soon as `cfClearance` becomes truthy: it is falsy at
    the start of every iteration that enumerates.
  */
  lemma {:induction false} EnumeratesOnlyWhileFalsy(listen: Listener, token: Option<string>, polls: nat -> Poll, i: nat)
    requires i <= PollLimit
    ensures var r := PollLoop(listen, token, polls, i);
      forall k :: i <= k < i + r.enumerations ==> !Truthy(TokenAt(listen, token, polls, i, k))
    decreases PollLimit - i
  {
    var r := PollLoop(listen, token, polls, i);
    PollStep(listen, token, polls, i);
    assert TokenAt(listen, token, polls, i, i) == token;
    if i < PollLimit && !Truthy(token) && PollMiss(polls(i)) {
      var t := listen(token, polls(i).headers);
      EnumeratesOnlyWhileFalsy(listen, t, polls, i + 1);
      forall k | i < k < i + r.enumerations ensures !Truthy(TokenAt(listen, token, polls, i, k)) {
        assert TokenAt(listen, token, polls, i, k) == TokenAt(listen, t, polls, i + 1, k);
      }
    }
  }

  /**
    A loop that ends on an enumeration ends on its last one: a found cookie
    sets `cfClearance` to that cookie's value, and a failed enumeration
    leaves the loop through the rejection.
  */
  lemma {:induction false} LastEnumeration(listen: Listener, token: Option<string>, polls: nat -> Poll, i: nat)
    requires i <= PollLimit
    ensures var r := PollLoop(listen, token, polls, i);
      && (r.stop.CookieFound? ==>
            var last := polls(i + r.enumerations - 1);
            && last.cookies.Some? && HasClearance(last.cookies.value)
            && r.token == Some(FindClearance(last.cookies.value).value.value))
      && (r.stop.EnumerationFailed? ==> polls(i + r.enumerations - 1).cookies.None?)
    decreases PollLimit - i
  {
    var r := PollLoop(listen, token, polls, i);
    PollStep(listen, token, polls, i);
    if i < PollLimit && !Truthy(token) {
      if PollMiss(polls(i)) {
        var rest := PollLoop(listen, listen(token, polls(i).headers), polls, i + 1);
        LastEnumeration(listen, listen(token, polls(i).headers), polls, i + 1);
        assert i + r.enumerations - 1 == (i + 1) + rest.enumerations - 1;
      } else {
        EnumerationEnds(listen, token, polls, i);
      }
    }
  }

  /** An iteration whose enumeration does not miss ends the loop with what it enumerated. */
  lemma EnumerationEnds(listen: Listener, token: Option<string>, polls: nat -> Poll, i: nat)
    requires i < PollLimit && !Truthy(token) && !PollMiss(polls(i))
    ensures var r := PollLoop(listen, token, polls, i);
      && (r.stop.CookieFound? ==>
            && polls(i).cookies.Some? && HasClearance(polls(i).cookies.value)
            && r.token == Some(FindClearance(polls(i).cookies.value).value.value))
      && (r.stop.EnumerationFailed? ==> polls(i).cookies.None?)
  {
  }

  /**
    Every enumeration but a final finding or failing one misses: the loop
    goes on only past clean misses.
  */
  lemma {:induction false} EnumerationsMissed(listen: Listener, token: Option<string>, polls: nat -> Poll, i: nat)
    requires i <= PollLimit
    ensures var r := PollLoop(listen, token, polls, i);
      var misses := if r.stop.CookieFound? || r.stop.EnumerationFailed? then r.enumerations - 1 else r.enumerations;
      forall k :: i <= k < i + misses ==> PollMiss(polls(k))
    decreases PollLimit - i
  {
    PollStep(listen, token, polls, i);
    if i < PollLimit && !Truthy(token) && PollMiss(polls(i)) {
      EnumerationsMissed(listen, listen(token, polls(i).headers), polls, i + 1);
    }
  }

  /** When the loop leaves early because `cfClearance` became truthy, it leaves with the listener's value. */
  lemma {:induction false} LeavesWithListenerValue(listen: Listener, token: Option<string>, polls: nat -> Poll, i: nat)
    requires i <= PollLimit
    ensures var r := PollLoop(listen, token, polls, i);
      r.stop.TokenSeen? ==> r.token == TokenAt(listen, token, polls, i, i + r.enumerations)
    decreases PollLimit - i
  {
    var r := PollLoop(listen, token, polls, i);
    PollStep(listen, token, polls, i);
    if i < PollLimit && !Truthy(token) && PollMiss(polls(i)) {
      var t := listen(token, polls(i).headers);
      var rest := PollLoop(listen, t, polls, i + 1);
      LeavesWithListenerValue(listen, t, polls, i + 1);
      var k := i + r.enumerations;
      assert k == (i + 1) + rest.enumerations;
      TokenAtStep(listen, token, polls, i, k);
    } else if r.stop.TokenSeen? {
      assert r.enumerations == 0;
      assert TokenAt(listen, token, polls, i, i) == token;
    }
  }

  /** When the loop runs out, `cfClearance` holds the listener's value after the last iteration. */
  lemma {:induction false} RunsOutWithListenerValue(listen: Listener, token: Option<string>, polls: nat -> Poll, i: nat)
    requires i <= PollLimit
    ensures var r := PollLoop(listen, token, polls, i);
      r.stop.LimitReached? ==> r.token == TokenAt(listen, token, polls, i, PollLimit)
    decreases PollLimit - i
  {
    PollStep(listen, token, polls, i);
    if i < PollLimit && !Truthy(token) && PollMiss(polls(i)) {
      var t := listen(token, polls(i).headers);
      RunsOutWithListenerValue(listen, t, polls, i + 1);
      assert TokenAt(listen, token, polls, i, PollLimit) == TokenAt(listen, t, polls, i + 1, PollLimit);
    }
  }

  datatype Failure = CookieNotFound | TimedOut | ProtocolError

  /** What `processSingleRequest` returns: `{ success: true, value }` or `{ success: false, error }`. */
  datatype Outcome = Success(value: string) | Failed(reason: Failure)

  /**
    The racing navigation branch: navigate and wait for the load event (the
    listener sees `navHeaders` meanwhile), poll, then succeed exactly when
    `cfClearance` is truthy and throw 'Cookie not found' otherwise.
  */
  function Navigation(navigateOk: bool, navHeaders: seq<Option<string>>, polls: nat -> Poll): (r: Outcome)
    ensures !navigateOk ==> r == Failed(ProtocolError)
    ensures r.Success? ==> r.value != ""
    ensures navigateOk ==>
      var e := PollLoop(OnHeaders, OnHeaders(None, navHeaders), polls, 0);
      && (r.Failed? && r.reason == ProtocolError <==> e.stop.EnumerationFailed?)
      && (r.Success? <==> !e.stop.EnumerationFailed? && Truthy(e.token))
      && (r.Success? ==> Some(r.value) == e.token)
      && (!e.stop.EnumerationFailed? && !Truthy(e.token) ==> r == Failed(CookieNotFound))
  {
    if !navigateOk then Failed(ProtocolError)
    else
      var e := PollLoop(OnHeaders, OnHeaders(None, navHeaders), polls, 0);
      if e.stop.EnumerationFailed? then Failed(ProtocolError)
      else if Truthy(e.token) then Success(e.token.value)
      else Failed(CookieNotFound)
  }

  /**
    What the browser and the timer do during one request. `connectOk` is the
    CDP connection, `enableOk` covers `Network.enable` and `Page.enable`,
    `timedOut` says the 30 s timer rejects before the navigation branch
    settles, and `handoff`/`handoffId` are the replacement launch and id that
    `release` uses when a caller is parked.
  */
  datatype Session = Session(
    connectOk: bool, enableOk: bool, navigateOk: bool, navHeaders: seq<Option<string>>,
    polls: nat -> Poll, timedOut: bool, handoff: Launch, handoffId: Id)

  /** The `try` block and its `catch`: every error becomes `{ success: false }`. */
  function Attempt(s: Session): (r: Outcome)
    ensures !s.connectOk || !s.enableOk ==> r == Failed(ProtocolError)
    ensures s.connectOk && s.enableOk && s.timedOut ==> r == Failed(TimedOut)
    ensures s.connectOk && s.enableOk && !s.timedOut ==> r == Navigation(s.navigateOk, s.navHeaders, s.polls)
    ensures r.Success? ==> s.connectOk && s.enableOk && !s.timedOut && s.navigateOk
  {
    if !s.connectOk || !s.enableOk then Failed(ProtocolError)
    else if s.timedOut then Failed(TimedOut)
    else Navigation(s.navigateOk, s.navHeaders, s.polls)
  }

  datatype LifeEvent = ClientOpened | ClientClosed | ReleaseCalled(id: Id)

  /** `processSingleRequest`'s return value, or the error that escapes it. */
  datatype Result = Returned(outcome: Outcome) | Threw(error: string)

  datatype Served = Served(result: Result, next: Pool, events: seq<LifeEvent>, handoff: Option<Handoff>)

  /**
    `processSingleRequest` once `acquire` has resolved with `grant`: the
    attempt, then the `finally` block, which closes the client when one was
    created (a failing close is swallowed) and releases the grant's id. An
    error thrown by `release` replaces the return value.
  */
  function Serve(p: Pool, grant: Grant, s: Session): (r: Served)
    ensures Count(r.events, ReleaseCalled(grant.id)) == 1
    ensures r.events[|r.events| - 1] == ReleaseCalled(grant.id)
    ensures forall e :: e in r.events && e.ReleaseCalled? ==> e.id == grant.id
    ensures ClientOpened in r.events <==> s.connectOk
    ensures ClientClosed in r.events <==> ClientOpened in r.events
    ensures r.next == Release(p, grant.id, s.handoff, s.handoffId).next
    ensures r.result.Threw? <==> Release(p, grant.id, s.handoff, s.handoffId).error.Some?
    ensures r.result.Returned? ==> r.result.outcome == Attempt(s)
  {
    var rel := Release(p, grant.id, s.handoff, s.handoffId);
    var events := (if s.connectOk then [ClientOpened, ClientClosed] else []) + [ReleaseCalled(grant.id)];
    CountOfShort(events, ReleaseCalled(grant.id));
    Served(if rel.error.Some? then Threw(rel.error.value) else Returned(Attempt(s)), rel.next, events, rel.handoff)
  }

  datatype Routed =
    | Responded(status: int, value: Option<string>, next: Pool, events: seq<LifeEvent>, handoff: Option<Handoff>)
    | Suspended(next: Pool)

  /** The route's answer once `processSingleRequest` has returned or thrown. */
  function Answer(sv: Served): (r: Routed)
    ensures r.Responded? && r.next == sv.next && r.events == sv.events && r.handoff == sv.handoff
    ensures r.status == 500 <==> sv.result.Threw?
    ensures r.status == 200 <==> sv.result.Returned? && sv.result.outcome.Success?
    ensures r.status == 408 <==> sv.result.Returned? && sv.result.outcome.Failed?
    ensures r.value.Some? <==> r.status == 200
    ensures r.status == 200 ==> r.value == Some(sv.result.outcome.value)
  {
    match sv.result
    case Threw(_) => Responded(500, None, sv.next, sv.events, sv.handoff)
    case Returned(Success(v)) => Responded(200, Some(v), sv.next, sv.events, sv.handoff)
    case Returned(Failed(_)) => Responded(408, None, sv.next, sv.events, sv.handoff)
  }

  /**
    POST /get-cf-clearance against pool `p` under the capacity test `rule`,
    for the request `caller` whose `acquire` launches `launch` under `id`. The
    program as written is `rule == PoolLength`. A parked request is Suspended;
    when a later release hands it a browser it continues as `Answer(Serve(...))`.
  */
  function Route(rule: CapacityRule, url: Option<string>, userAgent: Option<string>, p: Pool, caller: Waiter,
                 launch: Launch, id: Id, s: Session): (r: Routed)
    ensures r.Responded? && r.status == 400 <==> !Truthy(url) || !Truthy(userAgent)
    ensures r.Responded? && r.status == 400 ==> r.next == p && r.events == []
    ensures r.Suspended? <==> Truthy(url) && Truthy(userAgent) && !HasRoom(rule, p)
    ensures r.Suspended? ==> r.next == p.(waiting := p.waiting + [caller])
    ensures r.Responded? ==> r.status in {200, 400, 408, 500}
    ensures r.Responded? ==> (r.value.Some? <==> r.status == 200)
    ensures r.Responded? && r.status == 200 ==> Truthy(r.value)
    ensures Truthy(url) && Truthy(userAgent) && HasRoom(rule, p) && launch.LaunchFailed? ==>
              r == Responded(500, None, p, [], None)
    ensures Truthy(url) && Truthy(userAgent) && HasRoom(rule, p) && launch.Launched? ==>
              && r.Responded?
              && Count(r.events, ReleaseCalled(id)) == 1
              && r.events[|r.events| - 1] == ReleaseCalled(id)
              && GrantedAnswered(rule, p, launch.browser, id, s, r)
  {
    if !Truthy(url) || !Truthy(userAgent) then Responded(400, None, p, [], None)
    else
      match Acquire(rule, p, caller, launch, id)
      case AcquireFailed(next, _) => Responded(500, None, next, [], None)
      case Parked(next) => Suspended(next)
      case Granted(next, grant) =>
        var r := Answer(Serve(next, grant, s));
        AnswerOnGrant(rule, p, caller, launch.browser, id, s);
        r
  }

  /**
    The answer to a granted request: the pool ends as `release` leaves it,
    500 exactly when `release` throws, otherwise 200 with the value when the
    attempt succeeded and 408 when it failed.
  */
  predicate GrantedAnswered(rule: CapacityRule, p: Pool, b: Browser, id: Id, s: Session, r: Routed) {
    var rel := Release(p.(active := p.active[id := b]), id, s.handoff, s.handoffId);
    && r.Responded?
    && r.next == rel.next
    && (r.status == 500 <==> rel.error.Some?)
    && (r.status == 200 <==> rel.error.None? && Attempt(s).Success?)
    && (r.status == 408 <==> rel.error.None? && Attempt(s).Failed?)
    && (r.status == 200 ==> r.value == Some(Attempt(s).value))
  }

  lemma AnswerOnGrant(rule: CapacityRule, p: Pool, caller: Waiter, b: Browser, id: Id, s: Session)
    requires HasRoom(rule, p)
    ensures var a := Acquire(rule, p, caller, Launched(b), id);
      a.Granted? && GrantedAnswered(rule, p, b, id, s, Answer(Serve(a.next, a.grant, s)))
  {
  }

  /**
    As written, a request that reaches a pool built with the program's limit
    of 10 is never parked, whatever happened to the pool before: the capacity
    test compares the never-filled `pool` array.
  */
  lemma AsWrittenNeverSuspends(ops: seq<Op>, url: Option<string>, userAgent: Option<string>, caller: Waiter,
                               launch: Launch, id: Id, s: Session)
    ensures var h := Run(PoolLength, History(NewPool(MaxConcurrentBrowsers), [], []), ops);
      !Route(PoolLength, url, userAgent, h.pool, caller, launch, id, s).Suspended?
  {
    PoolStaysEmpty(PoolLength, History(NewPool(MaxConcurrentBrowsers), [], []), ops);
  }

  /**
    The status decision of a valid request that gets a browser: 500 exactly
    when `release` throws (a caller is parked and the replacement launch
    fails); 200 exactly when it does not and the attempt connected, enabled,
    navigated, beat the timer, never saw an enumeration reject and ended with
    a truthy `cfClearance`, answering that value; 408 in every other case.
  */
  lemma StatusDecision(rule: CapacityRule, url: Option<string>, userAgent: Option<string>, p: Pool,
                       caller: Waiter, b: Browser, id: Id, s: Session)
    requires Truthy(url) && Truthy(userAgent) && HasRoom(rule, p)
    ensures var r := Route(rule, url, userAgent, p, caller, Launched(b), id, s);
      var e := PollLoop(OnHeaders, OnHeaders(None, s.navHeaders), s.polls, 0);
      var throws := |p.waiting| > 0 && s.handoff.LaunchFailed?;
      var found := && s.connectOk && s.enableOk && s.navigateOk && !s.timedOut
                   && !e.stop.EnumerationFailed? && Truthy(e.token);
      && r.Responded?
      && (r.status == 500 <==> throws)
      && (r.status == 200 <==> !throws && found)
      && (r.status == 408 <==> !throws && !found)
      && (r.status == 200 ==> r.value == e.token)
  {
    var r := Route(rule, url, userAgent, p, caller, Launched(b), id, s);
    assert GrantedAnswered(rule, p, b, id, s, r);
    var g := p.(active := p.active[id := b]);
    assert id in g.active && g.waiting == p.waiting;
  }

  // ---------------------------------------------------------------------------
  // Properties of the wait loop
  // ---------------------------------------------------------------------------

  /** A header seen during navigation short-circuits the loop: no enumeration at all. */
  lemma HeaderBeforeFirstPoll(navHeaders: seq<Option<string>>, polls: nat -> Poll)
    requires Truthy(OnHeaders(None, navHeaders))
    ensures PollLoop(OnHeaders, OnHeaders(None, navHeaders), polls, 0).enumerations == 0
    ensures Navigation(true, navHeaders, polls) == Success(OnHeaders(None, navHeaders).value)
  {
  }

  /** A cookie found by an enumeration overrides any value the listener set in the same iteration. */
  lemma CookieOverridesHeader(listen: Listener, token: Option<string>, polls: nat -> Poll, i: nat)
    requires i < PollLimit && !Truthy(token)
    requires polls(i).cookies.Some? && HasClearance(polls(i).cookies.value)
    ensures PollLoop(listen, token, polls, i).token == Some(FindClearance(polls(i).cookies.value).value.value)
    ensures PollLoop(listen, token, polls, i).enumerations == 1
  {
  }

  /**
    A `cf_clearance` cookie whose value is empty ends the loop but leaves
    `cfClearance` falsy, so the request fails with 'Cookie not found' unless
    a header supplies a value.
  */
  lemma EmptyCookieNotFound(navHeaders: seq<Option<string>>, polls: nat -> Poll)
    requires !Truthy(OnHeaders(None, navHeaders))
    requires polls(0).cookies.Some? && HasClearance(polls(0).cookies.value)
    requires FindClearance(polls(0).cookies.value).value.value == ""
    ensures Navigation(true, navHeaders, polls) == Failed(CookieNotFound)
  {
  }

  /** When every enumeration misses and the listener never sets `cfClearance`, the loop runs out. */
  lemma {:induction false} AllMissesRunOut(listen: Listener, polls: nat -> Poll, i: nat)
    requires i <= PollLimit
    requires forall k :: i <= k < PollLimit ==> PollMiss(polls(k)) && listen(None, polls(k).headers).None?
    ensures PollLoop(listen, None, polls, i) == PollEnd(None, PollLimit - i, LimitReached)
    decreases PollLimit - i
  {
    PollStep(listen, None, polls, i);
    if i < PollLimit {
      AllMissesRunOut(listen, polls, i + 1);
    }
  }

  /** When every enumeration misses and no header ever matches, the request fails after exactly 30 enumerations. */
  lemma AllMissesNotFound(navHeaders: seq<Option<string>>, polls: nat -> Poll)
    requires forall j :: 0 <= j < |navHeaders| ==> HeaderToken(navHeaders[j]).None?
    requires forall k :: 0 <= k < PollLimit ==> PollMiss(polls(k))
    requires forall k, j :: 0 <= k < PollLimit && 0 <= j < |polls(k).headers| ==> HeaderToken(polls(k).headers[j]).None?
    ensures PollLoop(OnHeaders, OnHeaders(None, navHeaders), polls, 0) == PollEnd(None, PollLimit, LimitReached)
    ensures Navigation(true, navHeaders, polls) == Failed(CookieNotFound)
  {
    LastHeaderWins(None, navHeaders);
    SilentPolls(polls);
    AllMissesRunOut(OnHeaders, polls, 0);
  }

  /** Iterations whose headers never match leave an unset `cfClearance` unset. */
  lemma SilentPolls(polls: nat -> Poll)
    requires forall k, j :: 0 <= k < PollLimit && 0 <= j < |polls(k).headers| ==> HeaderToken(polls(k).headers[j]).None?
    ensures forall k :: 0 <= k < PollLimit ==> OnHeaders(None, polls(k).headers).None?
  {
    forall k | 0 <= k < PollLimit ensures OnHeaders(None, polls(k).headers).None? {
      var hs := polls(k).headers;
      assert forall j :: 0 <= j < |hs| ==> HeaderToken(hs[j]).None?;
      LastHeaderWins(None, hs);
    }
  }

  /**
    Every path through `processSingleRequest` after `acquire` calls `release`,
    and afterwards the request's id is no longer registered unless the
    handoff reused it.
  */
  lemma ReleaseOnEveryPath(p: Pool, grant: Grant, s: Session)
    ensures var r := Serve(p, grant, s);
      && ReleaseCalled(grant.id) in r.events
      && (grant.id in p.active && grant.id != s.handoffId ==> grant.id !in r.next.active)
  {
    var r := Serve(p, grant, s);
    assert r.events[|r.events| - 1] == ReleaseCalled(grant.id);
  }
}

=== FILE: script.dfy ===
/**
  main.js: a one-shot script. It launches Chrome, connects, navigates, then
  runs up to `maxWaitTime / checkInterval` iterations of click, random delay
  and cookie check, writing the first `cf_clearance` cookie to the output file
  and stopping there. Every error inside the `try` is caught and logged; the
  `finally` block closes the client and kills Chrome when each exists.
*/
module Script {
  import opened Base
  import opened Cookies
  import opened Trace
  import opened Clicking

  const MaxWaitTime: int := 30000
  const CheckInterval: int := 10
  const MaxIterations: nat := MaxWaitTime / CheckInterval

  /**
    The environment of one run. `setupOk` covers `Network.enable`,
    `Page.enable`, `Page.navigate` and `Page.loadEventFired`; `writeOk` is the
    outcome of `fs.writeFile`; `closeOk` and `killOk` are the outcomes of the
    teardown calls.
  */
  datatype Env = Env(launchOk: bool, connectOk: bool, setupOk: bool, rounds: nat -> Round,
                     writeOk: bool, closeOk: bool, killOk: bool)

  /** How the `try` block ends: cookie saved, loop exhausted, or an error caught and logged. */
  datatype Outcome = Saved(cookie: Cookie) | NotFound | Caught

  /** State at the end of the `try`/`catch`: outcome, events, and which handles exist. */
  datatype Attempted = Attempted(outcome: Outcome, events: seq<Event>, chrome: bool, client: bool)

  /**
    The `try` block and its `catch`: Chrome exists once launched, the client
    once connected, and only a run whose setup completed saves or runs out.
  */
  function Attempt(env: Env): (r: Attempted)
    ensures r.chrome <==> env.launchOk
    ensures r.client <==> env.launchOk && env.connectOk
    ensures !r.outcome.Caught? ==> env.launchOk && env.connectOk && env.setupOk
    ensures r.outcome.Saved? ==> env.writeOk
  {
    if !env.launchOk then Attempted(Caught, [], false, false)
    else if !env.connectOk then Attempted(Caught, [ChromeLaunched], true, false)
    else if !env.setupOk then Attempted(Caught, [ChromeLaunched, ClientConnected], true, true)
    else AttemptAfterSetup(env.rounds, env.writeOk)
  }

  /**
    The `try` block once Chrome is up and the page has loaded: a found cookie
    is written (the write call is the last event), and the run saves exactly
    when the loop found a cookie and the write succeeded.
  */
  function AttemptAfterSetup(rounds: nat -> Round, writeOk: bool): (r: Attempted)
    ensures r.chrome && r.client
    ensures r.outcome.Saved? <==> writeOk && ClickLoop(MaxIterations, rounds, 0).outcome.Found?
    ensures r.outcome.Saved? ==> r.outcome.cookie == ClickLoop(MaxIterations, rounds, 0).outcome.cookie
    ensures ClickLoop(MaxIterations, rounds, 0).outcome.Found? ==>
              |r.events| > 0 && r.events[|r.events| - 1] == FileWritten(ClickLoop(MaxIterations, rounds, 0).outcome.cookie)
    ensures r.outcome.NotFound? <==> ClickLoop(MaxIterations, rounds, 0).outcome.Exhausted?
  {
    var l := ClickLoop(MaxIterations, rounds, 0);
    var events := [ChromeLaunched, ClientConnected] + l.trace;
    match l.outcome
    case Found(c) => Attempted(if writeOk then Saved(c) else Caught, events + [FileWritten(c)], true, true)
    case Exhausted => Attempted(NotFound, events, true, true)
    case Failed => Attempted(Caught, events, true, true)
  }

  /** What every outcome of the `try`/`catch` satisfies. */
  predicate WellFormed(a: Attempted) {
    && (forall e :: e in a.events ==> e != ClientClosed && e != ChromeKilled && !e.Responded?)
    && (ChromeLaunched in a.events <==> a.chrome)
    && (ClientConnected in a.events <==> a.client)
    && (a.client ==> a.chrome)
    && Count(a.events, CookiesChecked) <= MaxIterations
    && ChecksFollowClicks(a.events)
    && |Writes(a.events)| <= 1
    && (a.outcome.Saved? ==> Writes(a.events) == [a.outcome.cookie])
  }

  /** Every run of the `try`/`catch` ends well formed. */
  lemma AttemptWellFormed(env: Env)
    ensures WellFormed(Attempt(env))
  {
    if env.launchOk && env.connectOk && env.setupOk {
      AfterSetupWellFormed(env.rounds, env.writeOk);
    } else {
      CaughtEarlyWellFormed(env);
    }
  }

  /** The branches of AttemptWellFormed that fail before the loop. */
  lemma CaughtEarlyWellFormed(env: Env)
    requires !(env.launchOk && env.connectOk && env.setupOk)
    ensures WellFormed(Attempt(env))
  {
    if !env.launchOk {
      assert Attempt(env) == Attempted(Caught, [], false, false);
    } else if !env.connectOk {
      assert Attempt(env) == Attempted(Caught, [ChromeLaunched], true, false);
      ConnectFailedWellFormed();
    } else {
      assert Attempt(env) == Attempted(Caught, [ChromeLaunched, ClientConnected], true, true);
      SetupFailedWellFormed();
    }
  }

  /** A run whose connection rejects has only launched Chrome. */
  lemma ConnectFailedWellFormed()
    ensures WellFormed(Attempted(Caught, [ChromeLaunched], true, false))
  {
    var a := Attempted(Caught, [ChromeLaunched], true, false);
    CountOfShort(a.events, CookiesChecked);
    NoWrites(a.events);
    assert ChecksFollowClicks(a.events) by { assert CheckFollowsClick(a.events, 0); }
  }

  /** A run whose setup rejects has launched Chrome and connected, nothing more. */
  lemma SetupFailedWellFormed()
    ensures WellFormed(Attempted(Caught, [ChromeLaunched, ClientConnected], true, true))
  {
    var a := Attempted(Caught, [ChromeLaunched, ClientConnected], true, true);
    CountOfShort(a.events, CookiesChecked);
    NoWrites(a.events);
    assert ChecksFollowClicks(a.events) by {
      assert CheckFollowsClick(a.events, 0) && CheckFollowsClick(a.events, 1);
    }
  }

  /** The loop branch of AttemptWellFormed. */
  lemma AfterSetupWellFormed(rounds: nat -> Round, writeOk: bool)
    ensures WellFormed(AttemptAfterSetup(rounds, writeOk))
  {
    var l := ClickLoop(MaxIterations, rounds, 0);
    var events := [ChromeLaunched, ClientConnected] + l.trace;
    LoopWellFormed(rounds);
    if l.outcome.Found? {
      var c := l.outcome.cookie;
      var outcome := if writeOk then Saved(c) else Caught;
      assert AttemptAfterSetup(rounds, writeOk) == Attempted(outcome, events + [FileWritten(c)], true, true);
      WriteWellFormed(events, c, outcome);
    } else {
      assert AttemptAfterSetup(rounds, writeOk).events == events;
    }
  }

  /** The loop's events after a successful setup, before any write. */
  lemma LoopWellFormed(rounds: nat -> Round)
    ensures var l := ClickLoop(MaxIterations, rounds, 0);
      var events := [ChromeLaunched, ClientConnected] + l.trace;
      WellFormed(Attempted(Caught, events, true, true)) && Writes(events) == []
  {
    SetUpLoop(MaxIterations, rounds);
    NoWrites([ChromeLaunched, ClientConnected] + ClickLoop(MaxIterations, rounds, 0).trace);
  }

  /** Appending the one write of the found cookie keeps the events well formed. */
  lemma WriteWellFormed(events: seq<Event>, c: Cookie, outcome: Outcome)
    requires WellFormed(Attempted(Caught, events, true, true)) && Writes(events) == []
    requires outcome == Saved(c) || outcome == Caught
    ensures WellFormed(Attempted(outcome, events + [FileWritten(c)], true, true))
  {
    var w := [FileWritten(c)];
    WritesAppend(events, w);
    assert Writes(w) == [c];
    CountAppend(events, w, CookiesChecked);
    CountOfShort(w, CookiesChecked);
    assert ChecksFollowClicks(w) by { assert CheckFollowsClick(w, 0); }
    ChecksFollowClicksAppend(events, w);
    assert forall x :: x in events + w <==> x in events || x in w;
  }

  /** The whole run: whether it settles (the `finally` block does not reject) and its events. */
  datatype Ran = Ran(outcome: Outcome, trace: seq<Event>, settled: bool)

  /** The `try`/`catch`, then the `finally` block. */
  function Conclude(a: Attempted, closeOk: bool, killOk: bool): (r: Ran)
    requires WellFormed(a)
    ensures r.outcome == a.outcome
    ensures r.settled <==> (a.client ==> closeOk) && (a.chrome ==> killOk)
    ensures Count(r.trace, CookiesChecked) <= MaxIterations
    ensures ChecksFollowClicks(r.trace)
    ensures Writes(r.trace) == Writes(a.events)
    ensures |Writes(r.trace)| <= 1
    ensures r.outcome.Saved? ==> Writes(r.trace) == [r.outcome.cookie]
    ensures Statuses(r.trace) == []
    ensures ClientClosed in r.trace <==> ClientConnected in r.trace
    ensures ChromeKilled in r.trace ==> ChromeLaunched in r.trace
    ensures (ChromeLaunched in r.trace && (ClientConnected in r.trace ==> closeOk))
              ==> r.trace[|r.trace| - 1] == ChromeKilled
    ensures ClientConnected in r.trace && !closeOk ==> ChromeKilled !in r.trace
    ensures a.events <= r.trace
    ensures Count(r.trace, CookiesChecked) == Count(a.events, CookiesChecked)
    ensures (ChromeLaunched in r.trace <==> a.chrome) && (ClientConnected in r.trace <==> a.client)
    ensures var n := |a.events|; forall e :: e in r.trace[n..] ==> e == ClientClosed || e == ChromeKilled
  {
    var trace := a.events + Teardown(a.chrome, a.client, closeOk);
    assert trace[|a.events|..] == Teardown(a.chrome, a.client, closeOk);
    TeardownTrace(a, closeOk);
    Ran(a.outcome, trace, (a.client ==> closeOk) && (a.chrome ==> killOk))
  }

  /** The trace facts of Conclude, about the `try` block's events followed by the teardown. */
  lemma TeardownTrace(a: Attempted, closeOk: bool)
    requires WellFormed(a)
    ensures var t := a.events + Teardown(a.chrome, a.client, closeOk);
      && Count(t, CookiesChecked) <= MaxIterations
      && ChecksFollowClicks(t)
      && Writes(t) == Writes(a.events)
      && |Writes(t)| <= 1
      && (a.outcome.Saved? ==> Writes(t) == [a.outcome.cookie])
      && Statuses(t) == []
      && (ClientClosed in t <==> ClientConnected in t)
      && (ChromeKilled in t ==> ChromeLaunched in t)
      && ((ChromeLaunched in t && (ClientConnected in t ==> closeOk)) ==> t[|t| - 1] == ChromeKilled)
      && (ClientConnected in t && !closeOk ==> ChromeKilled !in t)
      && a.events <= t
      && Count(t, CookiesChecked) == Count(a.events, CookiesChecked)
      && (ChromeLaunched in t <==> a.chrome) && (ClientConnected in t <==> a.client)
  {
    var t := a.events + Teardown(a.chrome, a.client, closeOk);
    TeardownKeeps(a.events, a.chrome, a.client, closeOk);
    TeardownMembers(a.events, a.chrome, a.client, closeOk);
    NoStatuses(a.events);
    assert (ChromeLaunched in t <==> a.chrome) && (ClientConnected in t <==> a.client);
  }

  /** `runChromeAndGetCookie()`. */
  function RunScript(env: Env): (r: Ran)
    ensures Count(r.trace, CookiesChecked) <= MaxIterations
    ensures ChecksFollowClicks(r.trace)
    ensures |Writes(r.trace)| <= 1
    ensures r.outcome.Saved? ==> Writes(r.trace) == [r.outcome.cookie]
    ensures Statuses(r.trace) == []
    ensures ClientClosed in r.trace <==> ClientConnected in r.trace
    ensures ChromeKilled in r.trace ==> ChromeLaunched in r.trace
    ensures (ChromeLaunched in r.trace && (ClientConnected in r.trace ==> env.closeOk))
              ==> r.trace[|r.trace| - 1] == ChromeKilled
    ensures r.settled <==> (ClientConnected in r.trace ==> env.closeOk) && (ChromeLaunched in r.trace ==> env.killOk)
    ensures r.outcome == Attempt(env).outcome
    ensures ChromeLaunched in r.trace <==> env.launchOk
    ensures ClientConnected in r.trace <==> env.launchOk && env.connectOk
    ensures ClientConnected in r.trace && !env.closeOk ==> ChromeKilled !in r.trace
    ensures Attempt(env).events <= r.trace
    ensures var n := |Attempt(env).events|; forall e :: e in r.trace[n..] ==> e == ClientClosed || e == ChromeKilled
  {
    AttemptWellFormed(env);
    var a := Attempt(env);
    Conclude(a, env.closeOk, env.killOk)
  }

  /**
    The run's result: the cookie is saved exactly when Chrome came up, some
    iteration found the cookie after clean misses only, and the write
    succeeded; the saved cookie is that iteration's first `cf_clearance`
    cookie; the run ends NotFound exactly when every check missed cleanly.
  */
  lemma SaveDecision(env: Env)
    ensures var r := RunScript(env);
      var ready := env.launchOk && env.connectOk && env.setupOk;
      && (r.outcome.Saved? <==> ready && env.writeOk && exists k :: FirstHit(MaxIterations, env.rounds, k))
      && (forall k :: r.outcome.Saved? && FirstHit(MaxIterations, env.rounds, k) ==> r.outcome.cookie == HitCookie(env.rounds(k)))
      && (r.outcome.NotFound? <==> ready && forall k :: 0 <= k < MaxIterations ==> Miss(env.rounds(k)))
  {
    LoopDecision(MaxIterations, env.rounds);
  }

  /**
    The output file is written at most once, and only with a found cookie:
    a write happens exactly when Chrome came up and some iteration found the
    cookie after clean misses only, and it writes that iteration's first
    `cf_clearance` cookie.
  */
  lemma WriteOnlyOnFind(env: Env)
    ensures var r := RunScript(env);
      var ready := env.launchOk && env.connectOk && env.setupOk;
      && (Writes(r.trace) != [] <==> ready && exists k :: FirstHit(MaxIterations, env.rounds, k))
      && (forall k :: ready && FirstHit(MaxIterations, env.rounds, k) ==> Writes(r.trace) == [HitCookie(env.rounds(k))])
  {
    AttemptWellFormed(env);
    assert Writes(RunScript(env).trace) == Writes(Attempt(env).events);
    AttemptWrites(env);
    LoopDecision(MaxIterations, env.rounds);
  }

  /** The writes of the `try` block: the found cookie once, or nothing. */
  lemma AttemptWrites(env: Env)
    ensures var l := ClickLoop(MaxIterations, env.rounds, 0);
      Writes(Attempt(env).events) ==
        if env.launchOk && env.connectOk && env.setupOk && l.outcome.Found? then [l.outcome.cookie] else []
  {
    var a := Attempt(env);
    if env.launchOk && env.connectOk && env.setupOk {
      var l := ClickLoop(MaxIterations, env.rounds, 0);
      var events := [ChromeLaunched, ClientConnected] + l.trace;
      LoopWellFormed(env.rounds);
      if l.outcome.Found? {
        var w := [FileWritten(l.outcome.cookie)];
        assert a.events == events + w;
        WritesAppend(events, w);
        assert Writes(w) == [l.outcome.cookie];
      } else {
        assert a.events == events;
      }
    } else {
      NoWrites(a.events);
    }
  }

  /**
    Once the loop has run cleanly, clicks and checks pair up: as many presses
    and as many releases as checks, one check per iteration run.
  */
  lemma ClicksMatchChecks(rounds: nat -> Round)
    ensures var l := ClickLoop(MaxIterations, rounds, 0);
      !l.outcome.Failed? ==>
        && Count(l.trace, Press(ClickX, ClickY)) == Count(l.trace, CookiesChecked)
        && Count(l.trace, Release(ClickX, ClickY)) == Count(l.trace, CookiesChecked)
        && Count(l.trace, CookiesChecked) == l.stop + (if l.outcome.Found? then 1 else 0)
  {
    LoopCounts(MaxIterations, rounds, 0);
  }
}

=== FILE: single_server.dfy ===
/**
  server.js: the single-process `/get-cf-clearance` handler. It validates the
  body, launches Chrome, connects, navigates, then runs up to
  `maxWaitTime / checkInterval` rounds of click, short sleep and cookie check,
  answering 200 with the first `cf_clearance` cookie's value, 408 when every
  check missed, and 500 on any error; the `finally` block closes the client
  and kills Chrome when each exists.
*/
module SingleServer {
  import opened Base
  import opened Cookies
  import opened Trace
  import opened Clicking

  const MaxWaitTime: int := 10000
  const CheckInterval: int := 10
  const MaxIterations: nat := MaxWaitTime / CheckInterval

  /**
    The environment of one request. `setupOk` covers `Network.enable`,
    `Page.enable`, `Page.navigate` and `Page.loadEventFired`, which fail alike.
  */
  datatype Env = Env(launchOk: bool, connectOk: bool, setupOk: bool, rounds: nat -> Round, closeOk: bool)

  /** State at the end of the `try`/`catch`: status, body value, events, and which handles exist. */
  datatype Attempted = Attempted(status: int, value: Option<string>, events: seq<Event>, chrome: bool, client: bool)

  /**
    The `try` block and its `catch`: Chrome exists once launched, the client
    once connected, and only a run whose setup completed reaches the loop's
    200 or 408.
  */
  function Attempt(env: Env): (r: Attempted)
    ensures r.chrome <==> env.launchOk
    ensures r.client <==> env.launchOk && env.connectOk
    ensures r.status in {200, 408, 500}
    ensures r.status != 500 ==> env.launchOk && env.connectOk && env.setupOk
    ensures r.value.Some? <==> r.status == 200
  {
    if !env.launchOk then Attempted(500, None, [], false, false)
    else if !env.connectOk then Attempted(500, None, [ChromeLaunched], true, false)
    else if !env.setupOk then Attempted(500, None, [ChromeLaunched, ClientConnected], true, true)
    else
      var l := ClickLoop(MaxIterations, env.rounds, 0);
      var events := [ChromeLaunched, ClientConnected] + l.trace;
      match l.outcome
      case Found(c) => Attempted(200, Some(c.value), events, true, true)
      case Exhausted => Attempted(408, None, events, true, true)
      case Failed => Attempted(500, None, events, true, true)
  }

  /** What every outcome of the `try`/`catch` satisfies. */
  predicate WellFormed(a: Attempted) {
    && a.status in {200, 408, 500}
    && (a.value.Some? <==> a.status == 200)
    && (forall e :: e in a.events ==> !e.Responded? && e != ClientClosed && e != ChromeKilled)
    && (ChromeLaunched in a.events <==> a.chrome)
    && (ClientConnected in a.events <==> a.client)
    && (a.client ==> a.chrome)
    && Count(a.events, CookiesChecked) <= MaxIterations
    && ChecksFollowClicks(a.events)
  }

  /** Every run of the `try`/`catch` ends well formed. */
  lemma AttemptWellFormed(env: Env)
    ensures WellFormed(Attempt(env))
  {
    if !env.launchOk {
      assert Attempt(env) == Attempted(500, None, [], false, false);
    } else if !env.connectOk {
      var a := Attempted(500, None, [ChromeLaunched], true, false);
      assert Attempt(env) == a;
      CountOfShort(a.events, CookiesChecked);
      assert ChecksFollowClicks(a.events) by { assert CheckFollowsClick(a.events, 0); }
    } else if !env.setupOk {
      var a := Attempted(500, None, [ChromeLaunched, ClientConnected], true, true);
      assert Attempt(env) == a;
      CountOfShort(a.events, CookiesChecked);
      assert ChecksFollowClicks(a.events) by {
        assert CheckFollowsClick(a.events, 0) && CheckFollowsClick(a.events, 1);
      }
    } else {
      LoopWellFormed(env.rounds);
    }
  }

  /** The loop branch of AttemptWellFormed. */
  lemma LoopWellFormed(rounds: nat -> Round)
    ensures var l := ClickLoop(MaxIterations, rounds, 0);
      WellFormed(Attempted(
        match l.outcome case Found(_) => 200 case Exhausted => 408 case Failed => 500,
        if l.outcome.Found? then Some(l.outcome.cookie.value) else None,
        [ChromeLaunched, ClientConnected] + l.trace, true, true))
  {
    SetUpLoop(MaxIterations, rounds);
  }

  datatype Handled = Handled(status: int, value: Option<string>, trace: seq<Event>)

  /** The response sent at the end of the `try`/`catch`, followed by the `finally` block. */
  function Conclude(a: Attempted, closeOk: bool): (r: Handled)
    requires WellFormed(a)
    ensures r.status == a.status && r.value == a.value
    ensures Statuses(r.trace) == [r.status]
    ensures Count(r.trace, CookiesChecked) <= MaxIterations
    ensures ChecksFollowClicks(r.trace)
    ensures ClientClosed in r.trace <==> ClientConnected in r.trace
    ensures ChromeKilled in r.trace ==> ChromeLaunched in r.trace
    ensures (ChromeLaunched in r.trace && (ClientConnected in r.trace ==> closeOk))
              ==> r.trace[|r.trace| - 1] == ChromeKilled
    ensures ChromeLaunched in r.trace && ClientConnected in r.trace && !closeOk ==> ChromeKilled !in r.trace
    ensures a.events + [Responded(a.status)] <= r.trace
    ensures Count(r.trace, CookiesChecked) == Count(a.events, CookiesChecked)
    ensures (ChromeLaunched in r.trace <==> a.chrome) && (ClientConnected in r.trace <==> a.client)
    ensures var n := |a.events| + 1; forall e :: e in r.trace[n..] ==> e == ClientClosed || e == ChromeKilled
  {
    var pre := a.events + [Responded(a.status)];
    var trace := pre + Teardown(a.chrome, a.client, closeOk);
    Responding(a);
    TeardownKeeps(pre, a.chrome, a.client, closeOk);
    TeardownMembers(pre, a.chrome, a.client, closeOk);
    Handled(a.status, a.value, trace)
  }

  /** The events up to the response: one status, and the checks and handles of the attempt. */
  lemma Responding(a: Attempted)
    requires WellFormed(a)
    ensures var pre := a.events + [Responded(a.status)];
      && Statuses(pre) == [a.status]
      && Count(pre, CookiesChecked) == Count(a.events, CookiesChecked)
      && ChecksFollowClicks(pre)
      && (forall e :: e in pre ==> e != ClientClosed && e != ChromeKilled)
      && (ChromeLaunched in pre <==> a.chrome)
      && (ClientConnected in pre <==> a.client)
  {
    var r := [Responded(a.status)];
    var pre := a.events + r;
    NoStatuses(a.events);
    StatusesAppend(a.events, r);
    assert Statuses(r) == [a.status];
    CountAppend(a.events, r, CookiesChecked);
    CountOfShort(r, CookiesChecked);
    assert ChecksFollowClicks(r) by { assert CheckFollowsClick(r, 0); }
    ChecksFollowClicksAppend(a.events, r);
    assert forall x :: x in pre <==> x in a.events || x in r;
  }

  /** One POST /get-cf-clearance request; `url` and `userAgent` are the body fields (None when absent). */
  function Handle(url: Option<string>, userAgent: Option<string>, env: Env): (r: Handled)
    ensures r.status == 400 <==> !Truthy(url) || !Truthy(userAgent)
    ensures r.status == 400 ==> r.trace == [Responded(400)]
    ensures r.status != 400 ==> r.status == Attempt(env).status && r.value == Attempt(env).value
    ensures r.status in {200, 400, 408, 500}
    ensures r.value.Some? <==> r.status == 200
    ensures Statuses(r.trace) == [r.status]
    ensures Count(r.trace, CookiesChecked) <= MaxIterations
    ensures ChecksFollowClicks(r.trace)
    ensures ClientClosed in r.trace <==> ClientConnected in r.trace
    ensures ChromeKilled in r.trace ==> ChromeLaunched in r.trace
    ensures (ChromeLaunched in r.trace && (ClientConnected in r.trace ==> env.closeOk))
              ==> r.trace[|r.trace| - 1] == ChromeKilled
    ensures ChromeLaunched in r.trace && ClientConnected in r.trace && !env.closeOk ==> ChromeKilled !in r.trace
    ensures Truthy(url) && Truthy(userAgent) ==>
              (ChromeLaunched in r.trace <==> env.launchOk) && (ClientConnected in r.trace <==> env.launchOk && env.connectOk)
    ensures Truthy(url) && Truthy(userAgent) ==>
              var a := Attempt(env);
              var n := |a.events| + 1;
              && a.events + [Responded(r.status)] <= r.trace
              && forall e :: e in r.trace[n..] ==> e == ClientClosed || e == ChromeKilled
  {
    if !Truthy(url) || !Truthy(userAgent) then
      var r := Handled(400, None, [Responded(400)]);
      assert Statuses(r.trace) == [400];
      r
    else
      AttemptWellFormed(env);
      Conclude(Attempt(env), env.closeOk)
  }

  /**
    The status decision of a valid request: 408 exactly when Chrome came up and
    every check missed, 200 exactly when Chrome came up and some iteration hit
    after clean misses, answering with that cookie's value; every other run is 500.
  */
  lemma StatusDecision(url: Option<string>, userAgent: Option<string>, env: Env)
    requires Truthy(url) && Truthy(userAgent)
    ensures var r := Handle(url, userAgent, env);
      var ready := env.launchOk && env.connectOk && env.setupOk;
      && (r.status == 408 <==> ready && forall k :: 0 <= k < MaxIterations ==> Miss(env.rounds(k)))
      && (r.status == 200 <==> ready && exists k :: FirstHit(MaxIterations, env.rounds, k))
      && (forall k :: r.status == 200 && FirstHit(MaxIterations, env.rounds, k) ==> r.value == Some(HitCookie(env.rounds(k)).value))
  {
    LoopDecision(MaxIterations, env.rounds);
  }
}

=== FILE: trace.dfy ===
/**
  Observable events of server.js and main.js, recorded in the order the program
  issues them: browser lifecycle, mouse dispatches, sleeps, cookie checks, the
  output file write and the HTTP response.
*/
module Trace {
  import opened Base
  import opened Cookies

  datatype MouseType = MousePressed | MouseReleased

  datatype Event =
    | ChromeLaunched
    | ClientConnected
    | Mouse(kind: MouseType, x: int, y: int, button: string, clickCount: int)
    | Slept
    | CookiesChecked
    | FileWritten(cookie: Cookie)
    | Responded(status: int)
    | ClientClosed
    | ChromeKilled

  /** The fixed click target of both programs. */
  const ClickX: int := 273
  const ClickY: int := 290

  function Press(x: int, y: int): Event {
    Mouse(MousePressed, x, y, "left", 1)
  }

  function Release(x: int, y: int): Event {
    Mouse(MouseReleased, x, y, "left", 1)
  }

  /**
    `clickAtCoordinates(x, y)`: the `Input.dispatchMouseEvent` calls issued. The
    release is issued only once the press has resolved; a rejected dispatch
    ends the click with an error.
  */
  function Click(x: int, y: int, pressOk: bool): (r: seq<Event>)
    ensures 1 <= |r| <= 2 && r[0] == Press(x, y)
    ensures |r| == 2 <==> pressOk
    ensures |r| == 2 ==> r[1] == Release(x, y)
    ensures forall e :: e in r ==> e.Mouse? && e.x == x && e.y == y && e.button == "left" && e.clickCount == 1
  {
    if pressOk then [Press(x, y), Release(x, y)] else [Press(x, y)]
  }

  /**
    The `finally` block of server.js and main.js: `client.close()` then
    `chrome.kill()`, each only if created. Neither call is guarded, so a
    rejected close skips the kill.
  */
  function Teardown(chrome: bool, client: bool, closeOk: bool): (r: seq<Event>)
    ensures ClientClosed in r <==> client
    ensures ChromeKilled in r <==> chrome && (client ==> closeOk)
    ensures ChromeKilled in r ==> r[|r| - 1] == ChromeKilled
    ensures forall e :: e in r ==> e == ClientClosed || e == ChromeKilled
    ensures |r| <= 2
  {
    if client && !closeOk then [ClientClosed]
    else (if client then [ClientClosed] else []) + (if chrome then [ChromeKilled] else [])
  }

  /** The teardown adds no check, status or write to what came before it. */
  lemma TeardownKeeps(pre: seq<Event>, chrome: bool, client: bool, closeOk: bool)
    requires ChecksFollowClicks(pre)
    ensures var t := pre + Teardown(chrome, client, closeOk);
      && Count(t, CookiesChecked) == Count(pre, CookiesChecked)
      && ChecksFollowClicks(t)
      && Statuses(t) == Statuses(pre)
      && Writes(t) == Writes(pre)
  {
    var fin := Teardown(chrome, client, closeOk);
    NoStatuses(fin);
    StatusesAppend(pre, fin);
    NoWrites(fin);
    WritesAppend(pre, fin);
    CountAppend(pre, fin, CookiesChecked);
    CountOfShort(fin, CookiesChecked);
    assert ChecksFollowClicks(fin) by {
      forall j | 0 <= j < |fin| ensures CheckFollowsClick(fin, j) {
        assert fin[j] in fin;
      }
    }
    ChecksFollowClicksAppend(pre, fin);
  }

  /** After the teardown, the closes and the kill are the teardown's own, and the kill comes last. */
  lemma TeardownMembers(pre: seq<Event>, chrome: bool, client: bool, closeOk: bool)
    requires forall e :: e in pre ==> e != ClientClosed && e != ChromeKilled
    ensures var t := pre + Teardown(chrome, client, closeOk);
      && (ClientClosed in t <==> client)
      && (ChromeKilled in t <==> chrome && (client ==> closeOk))
      && (ChromeKilled in t ==> t[|t| - 1] == ChromeKilled)
      && (ChromeLaunched in t <==> ChromeLaunched in pre)
      && (ClientConnected in t <==> ClientConnected in pre)
  {
    var fin := Teardown(chrome, client, closeOk);
    var t := pre + fin;
    assert forall x :: x in t <==> x in pre || x in fin;
    assert ChromeKilled in fin ==> t[|t| - 1] == fin[|fin| - 1];
  }

  /** Every cookie check is immediately preceded by a full click at the target and a sleep. */
  predicate ChecksFollowClicks(t: seq<Event>) {
    forall j :: 0 <= j < |t| ==> CheckFollowsClick(t, j)
  }

  /** If event j is a cookie check, the three events before it are press, release and sleep. */
  predicate CheckFollowsClick(t: seq<Event>, j: nat)
    requires j < |t|
  {
    t[j] == CookiesChecked ==>
      3 <= j && t[j - 3] == Press(ClickX, ClickY) && t[j - 2] == Release(ClickX, ClickY) && t[j - 1] == Slept
  }

  lemma ChecksFollowClicksAppend(a: seq<Event>, b: seq<Event>)
    requires ChecksFollowClicks(a) && ChecksFollowClicks(b)
    ensures ChecksFollowClicks(a + b)
  {
    forall j | 0 <= j < |a + b|
      ensures CheckFollowsClick(a + b, j)
    {
      if j < |a| {
        assert CheckFollowsClick(a, j);
      } else {
        assert CheckFollowsClick(b, j - |a|);
      }
    }
  }

  /** The HTTP statuses sent, in order. */
  function Statuses(t: seq<Event>): seq<int> {
    if |t| == 0 then []
    else (if t[0].Responded? then [t[0].status] else []) + Statuses(t[1..])
  }

  lemma {:induction false} StatusesAppend(a: seq<Event>, b: seq<Event>)
    ensures Statuses(a + b) == Statuses(a) + Statuses(b)
    decreases |a|
  {
    if |a| == 0 {
      assert a + b == b;
    } else {
      assert (a + b)[0] == a[0] && (a + b)[1..] == a[1..] + b;
      StatusesAppend(a[1..], b);
    }
  }

  lemma {:induction false} NoStatuses(t: seq<Event>)
    requires forall e :: e in t ==> !e.Responded?
    ensures Statuses(t) == []
    decreases |t|
  {
    if |t| > 0 {
      assert t[0] in t;
      assert forall e :: e in t[1..] ==> e in t;
      NoStatuses(t[1..]);
    }
  }

  /** The cookies written to the output file, in order. */
  function Writes(t: seq<Event>): seq<Cookie> {
    if |t| == 0 then []
    else (if t[0].FileWritten? then [t[0].cookie] else []) + Writes(t[1..])
  }

  lemma {:induction false} WritesAppend(a: seq<Event>, b: seq<Event>)
    ensures Writes(a + b) == Writes(a) + Writes(b)
    decreases |a|
  {
    if |a| == 0 {
      assert a + b == b;
    } else {
      assert (a + b)[0] == a[0] && (a + b)[1..] == a[1..] + b;
      WritesAppend(a[1..], b);
    }
  }

  lemma {:induction false} NoWrites(t: seq<Event>)
    requires forall e :: e in t ==> !e.FileWritten?
    ensures Writes(t) == []
    decreases |t|
  {
    if |t| > 0 {
      assert t[0] in t;
      assert forall e :: e in t[1..] ==> e in t;
      NoWrites(t[1..]);
    }
  }
}
